=== FILE: README.md ===
# Ollama-compatible LiteLLM proxy — a Dafny model

The proxy answers the Ollama HTTP API (`/api/generate`, `/api/chat`, `/api/tags`,
`/api/show`, ...) by forwarding each request to an upstream model through LiteLLM. A
providers document (`providers.json`) holds provider profiles, each with its connection
data and the models it serves; the config manager flattens it into a map from Ollama model
name to upstream configuration; a JSON store keeps the document, a usage log and the UI
settings; a tracker sums the usage log; and a settings page edits profiles and models.

This project models that core in Dafny 4:

- `api.dfy` (module `Api`): how a request becomes one upstream call (parameters, thinking
  settings, model string, messages), the two streaming pumps as loops over an upstream
  stream that may end in an exception, and the outcomes of every endpoint. The upstream
  service is a function parameter.
- `converter.dfy` (module `Converter`): the Ollama wire records, as maps from key to JSON
  value, so that "terminal fields present iff `done`" is stated exactly.
- `storage.dfy` (module `Storage`): the store as a class whose fields are the providers
  document (an insertion-ordered dict), the usage log and the UI settings.
- `config.dfy` (module `Config`): the config manager as a class whose reload rebuilds the
  model map in two nested loops and swaps it in.
- `tracker.dfy` (module `Tracker`): the grouping loops, proved against a direct definition
  (the records of a group and their sums), and conservation of totals across groups.
- `settings.dfy` (module `Settings`): the provider catalogue, the search filter, key
  masking, the unique-name loops, the save decisions of the two forms and the list of
  shown providers.
- Support modules: `json.dfy` (JSON values, `Option`), `strings.dfy` (the few Python string
  operations used), `ordered_map.dfy` (Python's insertion-ordered `dict`, since dict order
  decides which entry wins on a name collision and the order of listings), and
  `providers_doc.dfy` (the providers document and its flattening, shared by the config
  manager and the store).

In the code, a streamed chat line carries the tool calls of the chunk that delivered them,
and the terminal line carries none; a streamed terminal line always reports zero tokens;
a failed non-streamed call is answered 500 with its message, while a streamed one ends its
stream with an error line (there is no 429 mapping and no 400 validation); and
there is no rate limiter or admission queue.

## Model

| member | source | states |
|---|---|---|
| Api.BuildOptions | py_pro/src/ollama_proxy/api.py:35-47 | only `temperature`, `top_p` and `num_predict` (renamed `max_tokens`) are carried over, each present exactly when the request has it and with the request's value; no options give no parameters |
| Api.ApplyConfigOptions | py_pro/src/ollama_proxy/api.py:50-59 | a non-empty reasoning effort sets `reasoning_effort`, a non-zero budget sets `thinking` to `{type: enabled, budget_tokens}`; the key set grows by exactly those, and every other parameter keeps its value |
| Api.UpstreamProvider | py_pro/src/ollama_proxy/api.py:122-125 | `custom_openai` is sent as `openai`, every other provider type unchanged |
| Api.UpstreamModelIsDigest | py_pro/src/ollama_proxy/api.py:122-126 | the upstream model string is `<provider>/<model_name>`, the same string `/api/tags` lists as digest, with `openai` in place of `custom_openai` |
| Api.GenerateMessages | py_pro/src/ollama_proxy/api.py:106-110 | one or two messages: a system message first exactly when `system` is non-empty, and always exactly one final user message with the prompt |
| Api.OptionsKeys | py_pro/src/ollama_proxy/api.py:112-118 | the parameters sent upstream come from a fixed set of seven keys; `response_format` is `{type: json_object}` and is sent exactly when `format` is `"json"`, for generate and chat alike; chat sends `tools` exactly when the request's tools are truthy |
| Api.StreamGenerate | py_pro/src/ollama_proxy/api.py:159-214 | the pump yields exactly `GenerateStream`: one line per chunk with non-empty text, in order, then one terminal line, the error record if the stream raised |
| Api.GenerateLineSpec | py_pro/src/ollama_proxy/api.py:181-192 | a chunk yields at most one line; that line is a non-terminal `done=false` line with non-empty text, and the text it yields is the chunk's text |
| Api.GenerateDeltaLinesSpec | py_pro/src/ollama_proxy/api.py:181-192 | the lines before the end are all `done=false` progress lines, no more than the chunks, and their texts concatenate to the upstream text |
| Api.GenerateFinalSpec | py_pro/src/ollama_proxy/api.py:194-214 | the terminal line is a complete generate record with `done=true`, zero token counts, the elapsed time as duration (zero after an exception) and text empty or the error message |
| Api.GenerateStreamShape | py_pro/src/ollama_proxy/api.py:181-214 | a generate stream has at least one and at most chunks+1 lines; every line but the last is a `done=false` progress line and the last is the terminal line |
| Api.GenerateStreamText | py_pro/src/ollama_proxy/api.py:181-214 | the concatenated `response` fields equal the concatenated upstream deltas, followed after an exception by `Error processing request: <message>` |
| Api.FirstNoneDelta | py_pro/src/ollama_proxy/api.py:316-319 | the position of the first chunk without a delta: every earlier chunk has one, and it is the chunk count when all have one |
| Api.ChatStreamAsWritten | py_pro/src/ollama_proxy/api.py:294-352 | the pump as written: its lines before the end begin the corrected stream's lines, and its last line is the `AttributeError` record at the first chunk without a delta, or the stream's own terminal line when every chunk has one |
| Api.ChatChunkLines | py_pro/src/ollama_proxy/api.py:316-330 | the loop body yields the chunk's line: one exactly when the chunk has a delta with text or a non-empty list of tool calls, carrying the delta's text and its tool calls (`tool_calls or []`) |
| Api.ChatTerminalLine | py_pro/src/ollama_proxy/api.py:332-352 | the last chat line is the complete record with empty content, or the error record after an exception |
| Api.StreamChat | py_pro/src/ollama_proxy/api.py:294-352 | the pump yields exactly `ChatStream`: the lines of the chunks in order (a chunk without a delta skipped) and one terminal line |
| Api.ChatLineSpec | py_pro/src/ollama_proxy/api.py:316-330 | a chunk yields at most one line, and one exactly when it has a delta with text or a non-empty list of tool calls; that line is a `done=false` chat line carrying the chunk's text and exactly the delta's tool calls |
| Api.ChatDeltaLinesSpec | py_pro/src/ollama_proxy/api.py:316-330 | the chat lines before the end are all progress lines, no more than the chunks; their message texts concatenate to the upstream text and their tool calls to the upstream tool calls, in order |
| Api.ChatFinalSpec | py_pro/src/ollama_proxy/api.py:332-352 | the terminal chat line has the complete-record keys, no `context`, `done=true`, zero token counts and the elapsed time as duration (zero after an exception) |
| Api.ChatFinalText | py_pro/src/ollama_proxy/api.py:334-352 | the terminal chat line's text is empty, or the error message after an exception |
| Api.ChatStreamShape | py_pro/src/ollama_proxy/api.py:316-352 | a chat stream has at least one and at most chunks+1 lines; all but the last are `done=false` progress lines and the last is the terminal line |
| Api.ChatStreamNoContext | py_pro/src/ollama_proxy/api.py:316-352 | no line of a chat stream carries `context` |
| Api.ChatStreamText | py_pro/src/ollama_proxy/api.py:316-352 | the concatenated message texts equal the concatenated upstream deltas, followed after an exception by the error message |
| Api.ChatStreamToolCalls | py_pro/src/ollama_proxy/api.py:316-352 | the concatenated tool calls of a chat stream's lines equal the upstream tool calls in order, and the terminal line carries none |
| Api.ChatAsWrittenText | py_pro/src/ollama_proxy/api.py:316-352 | as written, the chat stream carries the text only up to the first chunk without a delta, and then the `AttributeError` message |
| Api.ChatAsWrittenAgrees | py_pro/src/ollama_proxy/api.py:316-319 | when every chunk has a delta, the stream as written and the corrected stream are the same |
| Api.NoneDeltaFirst | py_pro/src/ollama_proxy/api.py:317-319 | when the first chunk has no delta, the stream as written carries only the error message while the corrected one keeps all of the text |
| Api.NoneDeltaCutsChatShort | py_pro/src/ollama_proxy/api.py:317-319 | on a chunk without a delta followed by "hi", the stream as written reports the error and loses "hi"; the corrected stream carries "hi" |
| Api.Generate | py_pro/src/ollama_proxy/api.py:80-156 | unknown model: 404 `model '<name>' not found`, answered before any upstream call is built; streamed: the generate stream of the upstream answer; otherwise 500 with the failure's message, or 200 with the complete record and the reported token counts (0 when missing) |
| Api.Chat | py_pro/src/ollama_proxy/api.py:217-291 | as `Generate`, with the request's messages passed through unchanged, the corrected chat stream `ChatStream` (a chunk without a delta skipped, see Left out), and the reply's tool calls in the complete record |
| Api.Show | py_pro/src/ollama_proxy/api.py:361-379 | 404 for an unknown model; otherwise 200 whose body is the whole model description of that name, provider and model name: the modelfile naming the model and its `<provider>/<model_name>`, the details block of the provider, and the rest of `Converter.ModelInfo` |
| Api.TagItemsSpec | py_pro/src/ollama_proxy/api.py:62-77 | listing configured names gives one item per name, in order, each the list item of that name built from its configured provider and model name |
| Api.Tags | py_pro/src/ollama_proxy/api.py:62-77 | the loop builds exactly the items of the configured models, in configuration order, under `models` |
| Api.NotImplemented | py_pro/src/ollama_proxy/api.py:382-433 | the refused endpoints answer 501 with a body holding only an `error` string |
| Api.RunningModels | py_pro/src/ollama_proxy/api.py:355-358 | `/api/ps` answers 200 with an empty `models` list and nothing else |
| Api.Version | py_pro/src/ollama_proxy/api.py:436-439 | `/api/version` answers 200 with only `version` = `0.1.0` |
| Api.Root | py_pro/src/ollama_proxy/api.py:442-445 | `/` answers 200 with only `status` = `Ollama is running` |
| Converter.ResponseKeys | moc_python/src/ollama_proxy/converter.py:39-167 | a complete record adds the measures and `done_reason` to the keys of a stream line; only the generate record adds `context` |
| Converter.NsFromSeconds | moc_python/src/ollama_proxy/converter.py:15-17 | nanoseconds of a rational number of seconds, truncated toward zero (for either sign) |
| Converter.NsFromMicros | moc_python/src/ollama_proxy/converter.py:15-17 | a duration in whole microseconds converts exactly to microseconds × 1000 |
| Converter.GenerateResponse | moc_python/src/ollama_proxy/converter.py:20-52 | exactly the twelve keys of a complete record; `done=true`, `done_reason=stop`, empty `context`, the three phase durations zero, token counts as given and the duration in nanoseconds |
| Converter.GenerateStreamChunk | moc_python/src/ollama_proxy/converter.py:55-87 | the terminal keys are present iff `done`, and are then all zero or empty |
| Converter.TerminalGenerateChunkIsResponse | moc_python/src/ollama_proxy/converter.py:55-87 | a terminal generate chunk is the complete record with zero duration and zero tokens |
| Converter.ToolCallsOrEmpty | moc_python/src/ollama_proxy/converter.py:117 | `tool_calls or []`: the given list when non-empty, otherwise the empty list |
| Converter.AssistantMessage | moc_python/src/ollama_proxy/converter.py:113-118 | the message has exactly role `assistant`, the content, `images=None` and the tool calls or `[]` |
| Converter.ChatResponse | moc_python/src/ollama_proxy/converter.py:90-127 | exactly the keys of a complete chat record, no `context`; `done=true`, `done_reason=stop`, phase durations zero, token counts as given, duration in nanoseconds |
| Converter.ChatStreamChunk | moc_python/src/ollama_proxy/converter.py:130-167 | the terminal keys are present iff `done`, zero when present, and `context` is never present |
| Converter.TerminalChatChunkIsResponse | moc_python/src/ollama_proxy/converter.py:130-167 | a terminal chat chunk is the complete chat record with zero duration and zero tokens |
| Converter.ProviderModel | moc_python/src/ollama_proxy/converter.py:186 | the reference `<provider>/<model>` splits back into the provider, a slash and the model |
| Converter.ModelDetails | moc_python/src/ollama_proxy/converter.py:189-195 | the details block has its five keys, format `api` and the provider as family |
| Converter.ModelInfo | moc_python/src/ollama_proxy/converter.py:170-201 | the description's keys, the modelfile `# Model: <name>\nFROM <provider>/<model>`, the details block and `general.name` = the model name |
| Converter.ModelListItem | moc_python/src/ollama_proxy/converter.py:204-232 | `name` and `model` are the model name, size 0, digest `<provider>/<model>`, the same details block |
| Converter.ListItemAgreesWithInfo | moc_python/src/ollama_proxy/converter.py:170-232 | the description's modelfile is built from the list item's name and digest, and both carry the same details |
| Storage.FlattenModels | py_pro/src/ollama_proxy/storage.py:135-153 | the flattened models form a well-formed ordered dict |
| Storage.FlattenModelsSpec | py_pro/src/ollama_proxy/storage.py:141-153 | the flattened names are exactly the model names of the document, and each entry is a model of the profile it names under `provider_name` |
| Storage.UpsertSpec | py_pro/src/ollama_proxy/storage.py:117-131 | entries of the same name are replaced in place, others kept in order; the list grows by one, at the end, exactly when the name was new; the new entry is the only one with its name |
| Storage.UpsertIdempotent | py_pro/src/ollama_proxy/storage.py:117-131 | saving the same model twice equals saving it once |
| Storage.KeptModels | py_pro/src/ollama_proxy/storage.py:164 | the filtered list is no longer than the original; its content is stated by KeptModelsSpec and its order by KeptModelsOrder |
| Storage.KeptModelsSpec | py_pro/src/ollama_proxy/storage.py:164-166 | exactly the models with another name are kept, the length changes exactly when some model had that name, and a list without the name is kept as it is |
| Storage.KeptModelsOrder | py_pro/src/ollama_proxy/storage.py:164 | the filter keeps order: a single model stays exactly when it has another name, and the filter of a concatenation is the concatenation of the filters |
| Storage.StripModel | py_pro/src/ollama_proxy/storage.py:161-168 | a profile's models become the filtered list (so exactly those of another name, in their order), no other field of the profile changes, and a profile without the name is untouched |
| Storage.DeleteModelFrom | py_pro/src/ollama_proxy/storage.py:155-171 | the document keeps its profiles and order, each profile stripped of that name |
| Storage.DeleteModelSpec | py_pro/src/ollama_proxy/storage.py:155-171 | afterwards no profile holds the name, each profile's models are its filtered list (every other model kept, in its order), and nothing changes when no profile held it |
| Storage.StripEach | py_pro/src/ollama_proxy/storage.py:160-168 | the loop strips every profile, and reports a change exactly when some profile held the name |
| Storage.Storage.constructor | py_pro/src/ollama_proxy/storage.py:42-68 | a fresh store: empty document, empty log, empty settings |
| Storage.Storage.GetProvider | py_pro/src/ollama_proxy/storage.py:92-95 | the stored profile, `None` exactly for an unknown name |
| Storage.Storage.SaveProvider | py_pro/src/ollama_proxy/storage.py:83-90 | the profile is then read back without its `name` key; a new name goes last, an existing one keeps its place; no other profile changes |
| Storage.Storage.DeleteProvider | py_pro/src/ollama_proxy/storage.py:101-106 | only that profile is removed and the key order becomes `Without` of the old one (the others in their order, by OrderedMap.WithoutOrder); an absent name changes nothing but the file is written |
| Storage.Storage.SaveModel | py_pro/src/ollama_proxy/storage.py:108-133 | unknown profile: `ValueError` and nothing changes; otherwise only that profile's list changes, to its upsert |
| Storage.Storage.ListModelsFlat | py_pro/src/ollama_proxy/storage.py:135-153 | the nested loops build exactly the flattened document, later profiles and models winning a name collision |
| Storage.Storage.DeleteModel | py_pro/src/ollama_proxy/storage.py:155-171 | the document becomes `DeleteModelFrom`, and is written only when some profile held the name |
| Storage.Storage.AddUsageLog | py_pro/src/ollama_proxy/storage.py:173-186 | exactly one record appended at the end, earlier records and everything else unchanged |
| Storage.Storage.SaveUiSettings | py_pro/src/ollama_proxy/storage.py:196-198 | the settings are replaced, nothing else changes |
| Config.FlattenProviders | moc_python/src/ollama_proxy/config.py:122-144 | the reloaded map is a well-formed ordered dict |
| Config.ReloadedEntry | moc_python/src/ollama_proxy/config.py:124-144 | each reloaded entry comes from a model of that name: provider type (defaulting to the profile id), key, URL and extra parameters from the profile, model name and thinking settings from the model, and no later model has the name |
| Config.ConfigManager.constructor | moc_python/src/ollama_proxy/config.py:56-82 | starts from an empty map and reloads once |
| Config.ConfigManager.ReloadProviders | moc_python/src/ollama_proxy/config.py:109-149 | a missing or unparsable file leaves the map as it was; otherwise the flattened document replaces it wholesale |
| Config.ConfigManager.GetLiteLLMConfig | moc_python/src/ollama_proxy/config.py:168-178 | the configuration of a listed name, `None` exactly for names not in the map |
| Config.ConfigManager.ListModels | moc_python/src/ollama_proxy/config.py:180-187 | each configured name once, and exactly the names for which a configuration exists |
| ProvidersDoc.FlattenKeys | moc_python/src/ollama_proxy/config.py:124-136 | the flattened names are exactly the names of all models across all profiles |
| ProvidersDoc.FlattenLaterWins | moc_python/src/ollama_proxy/config.py:136 | each name maps to the entry built from the last model carrying it, which is a model of a listed profile |
| ProvidersDoc.PairsOrigin | moc_python/src/ollama_proxy/config.py:124-144 | every assignment of the walk comes from a model of a profile, and every model of every profile is assigned |
| OrderedMap.Put | py_pro/src/ollama_proxy/storage.py:89 | `d[k] = v`: the value is set, an existing key keeps its place and a new key goes last |
| OrderedMap.Remove | py_pro/src/ollama_proxy/storage.py:104-105 | `del d[k]`: exactly that key leaves the keys and the map |
| OrderedMap.WithoutOrder | py_pro/src/ollama_proxy/storage.py:104-105 | taking a key out keeps the order of the others: a single key stays exactly when it is another one, and taking out distributes over concatenation |
| OrderedMap.FromPairsKeys | moc_python/src/ollama_proxy/config.py:136 | a dict filled by assignments has exactly the assigned keys |
| OrderedMap.FromPairsLaterWins | moc_python/src/ollama_proxy/config.py:136 | on a key collision the last assignment wins |
| Tracker.GroupKey | src/ollama_proxy/tracker.py:79-83 | a record is counted under its provider, its model, or its day: a prefix of its timestamp containing no `T` |
| Tracker.Matching | src/ollama_proxy/tracker.py:48-52 | exactly the records of one group |
| Tracker.TallyKeys | src/ollama_proxy/tracker.py:44-54 | the groups are exactly the keys occurring among the records |
| Tracker.TallySpec | src/ollama_proxy/tracker.py:48-54 | each group holds the token sums and the number of precisely its own records, so never a zero count |
| Tracker.TallyTotals | src/ollama_proxy/tracker.py:48-54 | summed over all groups, the input tokens, output tokens and counts equal the totals over all records |
| Tracker.RecordsCounted | src/ollama_proxy/tracker.py:48-52 | the counts of all groups add up to the number of records |
| Tracker.Aggregate | src/ollama_proxy/tracker.py:44-54 | the loop builds the `Tally` of the records |
| Tracker.Tracker.constructor | src/ollama_proxy/tracker.py:20-26 | the given store, or a fresh empty one |
| Tracker.Tracker.TrackUsage | src/ollama_proxy/tracker.py:28-39 | exactly one record with the given fields appended to the store's log, nothing else in the store changed |
| Tracker.Tracker.StatsByProvider | src/ollama_proxy/tracker.py:41-54 | the records grouped by provider |
| Tracker.Tracker.StatsByModel | src/ollama_proxy/tracker.py:56-69 | the records grouped by model |
| Tracker.Tracker.DailyStats | src/ollama_proxy/tracker.py:71-85 | the records grouped by the date part of their timestamp |
| Strings.Lower | src/ollama_proxy/gui/settings.py:203 | `lower()` keeps the length and lowers each character |
| Strings.Before | src/ollama_proxy/tracker.py:80 | `split("T")[0]`: a prefix without the separator, followed in the string by the separator when shorter |
| Settings.ConcatSpec | src/ollama_proxy/gui/settings.py:140 | a provider is flattened exactly when some category holds it, the categories one after another |
| Settings.LiteLLMProvidersSpec | src/ollama_proxy/gui/settings.py:140 | a provider type is known exactly when some category holds it or it is `custom_openai`, which comes last |
| Settings.FilterProviders | src/ollama_proxy/gui/settings.py:202-204 | the filter never lengthens the list |
| Settings.FilterProvidersSpec | src/ollama_proxy/gui/settings.py:202-204 | exactly the providers whose lower-case name contains the lower-case query are kept, in catalogue order; an empty query keeps all |
| Settings.MaskApiKey | src/ollama_proxy/gui/settings.py:330-336 | no or an empty key is "not set", up to eight characters all hidden, longer keys show the first three and last four around four asterisks |
| Settings.MaskHidesMiddle | src/ollama_proxy/gui/settings.py:330-336 | long keys that agree on their first three and last four characters are masked alike |
| Settings.Candidate | src/ollama_proxy/gui/settings.py:253-256 | every candidate name starts with the base name |
| Settings.UniqueProviderName | src/ollama_proxy/gui/settings.py:251-258 | the base name when free, otherwise `base_k` for the smallest free k ≥ 2; never an existing name; the loop ends |
| Settings.SaveKeyFor | src/ollama_proxy/gui/settings.py:284-307 | refused exactly when the name is taken by a profile of the same type, or when the renamed key `<name> (<type>)` is also taken; otherwise saved under the name or the renamed key, never a key in use |
| Settings.ValidateAndSaveProvider | src/ollama_proxy/gui/settings.py:261-307 | an empty name is replaced by a free name derived from the type; the key is chosen by `SaveKeyFor`; a saved profile goes under an unused key, and nothing changes otherwise |
| Settings.AutoNamedProfileSaved | src/ollama_proxy/gui/settings.py:270-307 | an automatically chosen name is always saved under itself, unless the provider type is empty |
| Settings.ModelKeyBase | src/ollama_proxy/gui/settings.py:463-466 | the base key ends with ` (<profile>)` and starts with the entered name |
| Settings.ProbeModelKeys | src/ollama_proxy/gui/settings.py:469-482 | candidates are tried in order: all earlier ones belong to other profiles, and the result is the first free one, or refusal at the first belonging to the same profile |
| Settings.UniqueModelKey | src/ollama_proxy/gui/settings.py:445-484 | a free name is kept, a name of the same profile refused, otherwise the suffixed candidates are probed; a returned key is never in use |
| Settings.SaveModelEntry | src/ollama_proxy/gui/settings.py:487-506 | a new non-empty name is always saved under itself when the profile exists and refused with `Provider '<name>' not found` when it does not; a clash refusal happens only for a name already in use; a saved model goes under a key no profile uses, so it is appended to its profile's list; the file is written exactly when a model is saved, and nothing changes otherwise |
| Settings.FreshKeyAppends | py_pro/src/ollama_proxy/storage.py:117-131 | upserting a model whose name no profile uses appends it |
| Settings.NormaliseBudget | src/ollama_proxy/gui/settings.py:558-559 | a budget is sent exactly when it is given and non-zero |
| Settings.NormaliseEffort | src/ollama_proxy/gui/settings.py:575 | the effort `disable` is sent as `None`, any other choice as it is |
| Settings.SubmitModelForm | src/ollama_proxy/gui/settings.py:561-577 | profile, model name and upstream name are required in that order; only a complete form is submitted, with normalised thinking settings, and a complete form with an unused name is saved under that name exactly when the profile exists |
| Settings.Texts | src/ollama_proxy/gui/settings.py:155-157 | the strings of a stored list, in order |
| Settings.ToJson | src/ollama_proxy/gui/settings.py:186 | the shown list stored as JSON reads back as the same list |
| Settings.FirstIndex | src/ollama_proxy/gui/settings.py:178 | the first occurrence of the element |
| Settings.RemoveFirst | src/ollama_proxy/gui/settings.py:178 | `list.remove`: one element shorter, one occurrence gone, the elements before the first occurrence unchanged, and putting the element back at its first position gives the original list |
| Settings.SessionState.constructor | src/ollama_proxy/gui/settings.py:152-164 | the stored list or the default one, with `custom_openai` added when missing; the first shown provider selected |
| Settings.SessionState.Toggle | src/ollama_proxy/gui/settings.py:172-186 | `custom_openai` stays shown and nothing is saved; another shown provider is hidden; a hidden one is appended and selected; after a change the list is saved |
| Settings.HideKeepsOthers | src/ollama_proxy/gui/settings.py:178 | hiding keeps every other shown provider, and removes the provider completely from a list without repetitions |

## Left out

- Network, SDK and serialisation: `litellm.acompletion` is a function parameter (a complete reply or failure, or a stream of chunks ending normally or by an exception); FastAPI routing, `StreamingResponse`/`JSONResponse`, `json.dumps`, `debug_log`, `main` and `dev_main` are not modelled.
- Clocks: `get_timestamp` and `time.time()` readings are inputs. Each stream chunk carries the timestamp of the line it produces, and a completed call or stream carries its elapsed time in whole microseconds instead of float seconds.
- Api.Tags: all list items share one `modified_at` reading, whereas the code reads the clock once per item.
- Request bodies are taken as already decoded with the defaults of `body.get` applied; a malformed body, an `options` value that is not an object, and a reply without `choices[0]` are not modelled.
- Api.ApplyConfigOptions: the in-place update of the `options` dict is modelled as returning the updated map.
- Api.Chat: the streaming endpoint uses the corrected pump `Api.StreamChat`, so a chunk without a delta is skipped rather than ending the stream with the `AttributeError` line of api.py:319 (see Findings).
- Api.StreamChat: models the corrected pump, where a chunk without a delta yields nothing; the code as written is `Api.ChatStreamAsWritten` (see Findings).
- Usage values other than the two token counts, and the tokens an upstream stream reports (the code always sends zero there).
- File and process plumbing: reading and writing the JSON files, `mkdir`, the decode fallbacks of `_load_json`, the watchdog observer, the lock, `__del__`, `_load_server_config`, `_save_server_config` and `get_server_config`.
- Storage.Storage.constructor: models a store whose files did not exist yet; opening a directory with existing files is a store whose fields are those files' contents.
- `list_providers`, `get_usage_logs` and `get_ui_settings` are reads of the store's fields and have no members of their own.
- Providers document: it is read into typed profiles and models, so its error paths are not modelled: a model without `name` or `model_name` (a `KeyError`, uncaught in `reload_providers` and raised in `save_model`, `list_models_flat` and `delete_model`), a `"models": null` entry (a `TypeError`), a profile or document that is not a JSON object (an `AttributeError`), and profile keys other than the known ones, which the model drops.
- Settings.SessionState.constructor: a stored `visible_providers` is required to be a list of strings, as the page itself writes it; a hand-edited `ui_settings.json` holding another JSON value there is not modelled.
- Config: a profile whose `provider` or `additional_params` key holds JSON `null` is read as if the key were absent (the code would then use `None`).
- Settings: Streamlit rendering, `_set_provider`, `_set_model_provider`, the render fallback to the first known provider, the mutual-exclusion callbacks of the thinking settings, and `_handle_provider_deletion`/`_handle_model_deletion` are not modelled; messages shown with `st.error`/`st.warning` are represented by the outcome values.
- Strings.Lower: lowers ASCII letters only; Python's full Unicode case mapping is not modelled.
- py_pro's own `config.py` and `converter.py` are not part of this model; the `moc_python` versions are used. `src/ollama_proxy/storage.py` is not part of this model; the tracker is modelled over the `py_pro` store.
- The `chat_test/` clients, the dashboard, `moc_python`'s GUI app and the package `__init__` are not part of this model.

## Findings

| source | as written | input that shows it | evidently intended | confidence | as-written member | corrected member |
|---|---|---|---|---|---|---|
| py_pro/src/ollama_proxy/api.py:317-319 | `_stream_chat` guards `delta.content` against a `None` delta but then reads `delta.tool_calls` unguarded, so a chunk without a delta raises `AttributeError` and the stream ends with that error line, dropping all later text | a stream whose first chunk has no delta and whose second delta is "hi": the chat stream carries only `Error processing request: 'NoneType' object has no attribute 'tool_calls'` | skip a chunk without a delta, as the guard on `content` and `_stream_generate` do, so the stream carries all of the upstream text | not executed; medium | Api.ChatStreamAsWritten, Api.NoneDeltaCutsChatShort | Api.ChatStream, Api.ChatStreamText |

=== FILE: api.dfy ===
/** The request handling of py_pro/src/ollama_proxy/api.py: how an Ollama request becomes
    one upstream LiteLLM call, and how the upstream answer becomes an Ollama response, either
    one JSON document or a stream of NDJSON lines. The upstream service is a parameter: a
    function from the call to its reply (or to the sequence of stream chunks it delivers,
    possibly cut short by an exception). Each stream chunk carries the timestamp at which
    its line is built, and a finished stream the time it took. */
module Api {
  import opened Json
  import opened ProvidersDoc
  import Converter
  import Config

  type LiteLLMConfig = Config.LiteLLMConfig

  // ---------------------------------------------------------------------------------------
  // Building the upstream call

  /** `_build_options`: only `temperature`, `num_predict` (sent as `max_tokens`) and `top_p`
      are carried over; every other option is dropped, and a request without options gives
      no parameters. */
  function BuildOptions(options: Option<Object>): (r: Object)
    ensures r.Keys <= {"temperature", "max_tokens", "top_p"}
    ensures options.None? ==> r == map[]
    ensures options.Some? ==>
              && ("temperature" in r <==> "temperature" in options.value)
              && ("max_tokens" in r <==> "num_predict" in options.value)
              && ("top_p" in r <==> "top_p" in options.value)
              && ("temperature" in r ==> r["temperature"] == options.value["temperature"])
              && ("max_tokens" in r ==> r["max_tokens"] == options.value["num_predict"])
              && ("top_p" in r ==> r["top_p"] == options.value["top_p"])
  {
    var o := options.GetOr(map[]);
    var p0: Object := map[];
    var p1 := if "temperature" in o then p0["temperature" := o["temperature"]] else p0;
    var p2 := if "num_predict" in o then p1["max_tokens" := o["num_predict"]] else p1;
    if "top_p" in o then p2["top_p" := o["top_p"]] else p2
  }

  /** Python truthiness of the optional settings of a model entry. */
  predicate EffortSet(cfg: LiteLLMConfig) {
    cfg.reasoningEffort.Some? && cfg.reasoningEffort.value != ""
  }

  predicate BudgetSet(cfg: LiteLLMConfig) {
    cfg.thinkingBudget.Some? && cfg.thinkingBudget.value != 0
  }

  /** The `thinking` parameter for a budget. */
  function Thinking(budget: int): Json {
    JObj(map["type" := JStr("enabled"), "budget_tokens" := JInt(budget)])
  }

  /** `_apply_config_options`: a configured (non-empty) reasoning effort and a configured
      (non-zero) thinking budget override the corresponding parameters; every other
      parameter is left as it was. */
  function ApplyConfigOptions(options: Object, cfg: LiteLLMConfig): (r: Object)
    ensures r.Keys == options.Keys + (if EffortSet(cfg) then {"reasoning_effort"} else {})
                                   + (if BudgetSet(cfg) then {"thinking"} else {})
    ensures forall k :: k in options && k != "reasoning_effort" && k != "thinking" ==> r[k] == options[k]
    ensures EffortSet(cfg) ==> r["reasoning_effort"] == JStr(cfg.reasoningEffort.value)
    ensures !EffortSet(cfg) && "reasoning_effort" in options ==> r["reasoning_effort"] == options["reasoning_effort"]
    ensures BudgetSet(cfg) ==> r["thinking"] == Thinking(cfg.thinkingBudget.value)
    ensures !BudgetSet(cfg) && "thinking" in options ==> r["thinking"] == options["thinking"]
  {
    var o1 := if EffortSet(cfg) then options["reasoning_effort" := JStr(cfg.reasoningEffort.value)] else options;
    if BudgetSet(cfg) then o1["thinking" := Thinking(cfg.thinkingBudget.value)] else o1
  }

  /** `format == "json"` asks for a JSON object. */
  function WithFormat(options: Object, format: Json): (r: Object) {
    if format == JStr("json") then options["response_format" := JObj(map["type" := JStr("json_object")])] else options
  }

  /** Truthy `tools` are passed on. */
  function WithTools(options: Object, tools: Json): (r: Object) {
    if Truthy(tools) then options["tools" := tools] else options
  }

  /** The provider name LiteLLM is given: `custom_openai` endpoints speak the OpenAI API. */
  function UpstreamProvider(provider: string): (r: string)
    ensures provider == CustomOpenAI ==> r == "openai"
    ensures provider != CustomOpenAI ==> r == provider
  {
    if provider == CustomOpenAI then "openai" else provider
  }

  /** The LiteLLM model string `<provider>/<model_name>`. */
  function UpstreamModel(cfg: LiteLLMConfig): string {
    UpstreamProvider(cfg.provider) + "/" + cfg.modelName
  }

  /** The model string sent upstream is the digest `/api/tags` lists for the model, except
      for `custom_openai` models, which are sent as `openai/<model_name>`. */
  lemma UpstreamModelIsDigest(cfg: LiteLLMConfig)
    ensures cfg.provider != CustomOpenAI ==> UpstreamModel(cfg) == Converter.ProviderModel(cfg.provider, cfg.modelName)
    ensures cfg.provider == CustomOpenAI ==> UpstreamModel(cfg) == Converter.ProviderModel("openai", cfg.modelName)
  {
  }

  /** One chat message object. */
  function Message(role: string, content: string): Json {
    JObj(map["role" := JStr(role), "content" := JStr(content)])
  }

  /** The messages of a generate request: the system message when one is given, then
      exactly one user message with the prompt. */
  function GenerateMessages(system: string, prompt: string): (r: seq<Json>)
    ensures |r| == if system != "" then 2 else 1
    ensures r[|r| - 1] == Message("user", prompt)
    ensures system != "" ==> r[0] == Message("system", system)
  {
    (if system != "" then [Message("system", system)] else []) + [Message("user", prompt)]
  }

  /** What is passed to `litellm.acompletion`. */
  datatype UpstreamCall = UpstreamCall(
    model: string,
    messages: seq<Json>,
    apiKey: Option<string>,
    baseUrl: Option<string>,
    options: Object,
    stream: bool)

  /** The body of `/api/generate`, with the defaults of `body.get` applied. */
  datatype GenerateRequest = GenerateRequest(
    model: string, prompt: string, stream: Json, system: string, format: Json, options: Option<Object>)

  /** The body of `/api/chat`, with the defaults of `body.get` applied. */
  datatype ChatRequest = ChatRequest(
    model: string, messages: seq<Json>, stream: Json, format: Json, tools: Json, options: Option<Object>)

  function GenerateOptions(req: GenerateRequest, cfg: LiteLLMConfig): Object {
    ApplyConfigOptions(WithFormat(BuildOptions(req.options), req.format), cfg)
  }

  function ChatOptions(req: ChatRequest, cfg: LiteLLMConfig): Object {
    ApplyConfigOptions(WithTools(WithFormat(BuildOptions(req.options), req.format), req.tools), cfg)
  }

  /** The parameters sent upstream are drawn from a fixed set: the three mapped options, the
      JSON format request, the thinking settings, and for chat the tools. */
  lemma OptionsKeys(greq: GenerateRequest, creq: ChatRequest, cfg: LiteLLMConfig)
    ensures GenerateOptions(greq, cfg).Keys <=
              {"temperature", "max_tokens", "top_p", "response_format", "reasoning_effort", "thinking"}
    ensures ChatOptions(creq, cfg).Keys <=
              {"temperature", "max_tokens", "top_p", "response_format", "tools", "reasoning_effort", "thinking"}
    ensures "tools" in ChatOptions(creq, cfg) <==> Truthy(creq.tools)
    ensures "response_format" in GenerateOptions(greq, cfg) <==> greq.format == JStr("json")
    ensures "response_format" in ChatOptions(creq, cfg) <==> creq.format == JStr("json")
    ensures greq.format == JStr("json") ==>
              GenerateOptions(greq, cfg)["response_format"] == JObj(map["type" := JStr("json_object")])
    ensures creq.format == JStr("json") ==>
              ChatOptions(creq, cfg)["response_format"] == JObj(map["type" := JStr("json_object")])
  {
  }

  function GenerateCall(req: GenerateRequest, cfg: LiteLLMConfig): UpstreamCall {
    UpstreamCall(UpstreamModel(cfg), GenerateMessages(req.system, req.prompt), cfg.apiKey, cfg.baseUrl,
                 GenerateOptions(req, cfg), Truthy(req.stream))
  }

  function ChatCall(req: ChatRequest, cfg: LiteLLMConfig): UpstreamCall {
    UpstreamCall(UpstreamModel(cfg), req.messages, cfg.apiKey, cfg.baseUrl,
                 ChatOptions(req, cfg), Truthy(req.stream))
  }

  // ---------------------------------------------------------------------------------------
  // What the upstream service answers

  /** A complete answer, or the exception `acompletion` raised. `at` is the timestamp of the
      response built from it and `elapsedMicros` the time since the request started. */
  datatype Reply =
    | Completed(at: string, elapsedMicros: int, content: Option<string>, toolCalls: Option<seq<Json>>,
                promptTokens: Option<int>, completionTokens: Option<int>)
    | Failed(message: string)

  /** The `delta` of one streamed chunk. */
  datatype Delta = Delta(content: Option<string>, toolCalls: Option<seq<Json>>)

  /** One streamed chunk; its delta may be `None`. */
  datatype StreamChunk = StreamChunk(at: string, delta: Option<Delta>)

  /** How a stream ends: exhausted, or by an exception (possibly raised before any chunk). */
  datatype StreamEnd = Exhausted(at: string, elapsedMicros: int) | Raised(at: string, message: string)

  datatype Upstream = Upstream(chunks: seq<StreamChunk>, end: StreamEnd)

  const ErrorPrefix: string := "Error processing request: "

  /** The message of the `AttributeError` raised by `delta.tool_calls` on a `None` delta. */
  const NoneDeltaError: string := "'NoneType' object has no attribute 'tool_calls'"

  /** The text a stream end adds: the error message after an exception, nothing otherwise. */
  function EndText(end: StreamEnd): string {
    if end.Raised? then ErrorPrefix + end.message else ""
  }

  /** `delta.content if delta else ""`, with a `None` content read as empty. */
  function DeltaText(c: StreamChunk): string {
    if c.delta.Some? then c.delta.value.content.GetOr("") else ""
  }

  /** The text of all chunks, in order. */
  function Texts(chunks: seq<StreamChunk>): string {
    if chunks == [] then "" else Texts(chunks[..|chunks| - 1]) + DeltaText(chunks[|chunks| - 1])
  }

  // ---------------------------------------------------------------------------------------
  // The generate stream

  /** The line a chunk adds to a generate stream: one for a non-empty text, none otherwise. */
  function GenerateLine(modelName: string, c: StreamChunk): seq<Object> {
    if DeltaText(c) != "" then [Converter.GenerateStreamChunk(DeltaText(c), modelName, c.at, false)] else []
  }

  function GenerateDeltaLines(modelName: string, chunks: seq<StreamChunk>): seq<Object> {
    if chunks == [] then []
    else GenerateDeltaLines(modelName, chunks[..|chunks| - 1]) + GenerateLine(modelName, chunks[|chunks| - 1])
  }

  /** The terminal line: an empty final record with zero token counts, or the error. */
  function GenerateFinal(modelName: string, end: StreamEnd): Object {
    match end
    case Exhausted(at, us) => Converter.GenerateResponse("", modelName, at, us, 0, 0)
    case Raised(at, message) => Converter.GenerateResponse(ErrorPrefix + message, modelName, at, 0, 0, 0)
  }

  /** The NDJSON lines `_stream_generate` yields. */
  function GenerateStream(modelName: string, up: Upstream): seq<Object> {
    GenerateDeltaLines(modelName, up.chunks) + [GenerateFinal(modelName, up.end)]
  }

  /** `_stream_generate`. */
  method StreamGenerate(modelName: string, up: Upstream) returns (lines: seq<Object>)
    ensures lines == GenerateStream(modelName, up)
  {
    lines := [];
    var i := 0;
    while i < |up.chunks|
      invariant 0 <= i <= |up.chunks|
      invariant lines == GenerateDeltaLines(modelName, up.chunks[..i])
    {
      var chunk := up.chunks[i];
      var content := if chunk.delta.Some? then chunk.delta.value.content.GetOr("") else "";
      if content != "" {
        lines := lines + [Converter.GenerateStreamChunk(content, modelName, chunk.at, false)];
      }
      assert up.chunks[..i + 1][..i] == up.chunks[..i];
      i := i + 1;
    }
    assert up.chunks[..i] == up.chunks;
    match up.end {
      case Exhausted(at, us) =>
        lines := lines + [Converter.GenerateResponse("", modelName, at, us, 0, 0)];
      case Raised(at, message) =>
        lines := lines + [Converter.GenerateResponse(ErrorPrefix + message, modelName, at, 0, 0, 0)];
    }
  }

  /** The text field of a generate line. */
  function Response(line: Object): string {
    StrAt(line, "response")
  }

  /** One text field of each line, concatenated. */
  function Joined(lines: seq<Object>, text: Object -> string): string {
    if lines == [] then "" else Joined(lines[..|lines| - 1], text) + text(lines[|lines| - 1])
  }

  lemma JoinedAppend(a: seq<Object>, b: seq<Object>, text: Object -> string)
    ensures Joined(a + b, text) == Joined(a, text) + Joined(b, text)
    decreases |b|
  {
    if b == [] {
      assert a + b == a;
    } else {
      JoinedAppend(a, b[..|b| - 1], text);
      assert (a + b)[..|a + b| - 1] == a + b[..|b| - 1];
      assert (a + b)[|a + b| - 1] == b[|b| - 1];
    }
  }

  /** A line a generate stream yields before its end: no terminal fields, not done, and
      non-empty text. */
  predicate GenerateProgressLine(line: Object) {
    line.Keys == Converter.GenerateBaseKeys && line["done"] == JBool(false) && Response(line) != ""
  }

  /** The line of one chunk is such a line and carries the chunk's text. */
  lemma GenerateLineSpec(modelName: string, c: StreamChunk)
    ensures |GenerateLine(modelName, c)| <= 1
    ensures Joined(GenerateLine(modelName, c), Response) == DeltaText(c)
    ensures forall line :: line in GenerateLine(modelName, c) ==> GenerateProgressLine(line)
  {
    if DeltaText(c) != "" {
      assert GenerateLine(modelName, c)[..0] == [];
    }
  }

  /** Every generate delta line is a progress line, and together they carry exactly the
      upstream text, in order. */
  lemma {:induction false} GenerateDeltaLinesSpec(modelName: string, chunks: seq<StreamChunk>)
    ensures Joined(GenerateDeltaLines(modelName, chunks), Response) == Texts(chunks)
    ensures |GenerateDeltaLines(modelName, chunks)| <= |chunks|
    ensures forall line :: line in GenerateDeltaLines(modelName, chunks) ==> GenerateProgressLine(line)
  {
    if chunks != [] {
      var prefix := chunks[..|chunks| - 1];
      var c := chunks[|chunks| - 1];
      GenerateDeltaLinesSpec(modelName, prefix);
      GenerateLineSpec(modelName, c);
      JoinedAppend(GenerateDeltaLines(modelName, prefix), GenerateLine(modelName, c), Response);
    }
  }

  /** The terminal line of a generate stream: done, zero token counts, and the elapsed time
      as its duration, or no duration when the stream was cut short. */
  lemma GenerateFinalSpec(modelName: string, end: StreamEnd)
    ensures var f := GenerateFinal(modelName, end);
            && f.Keys == Converter.GenerateResponseKeys
            && f["done"] == JBool(true)
            && f["prompt_eval_count"] == JInt(0) && f["eval_count"] == JInt(0)
            && f["total_duration"] == JInt(if end.Exhausted? then end.elapsedMicros * 1000 else 0)
            && Joined([f], Response) == EndText(end)
  {
    assert [GenerateFinal(modelName, end)][..0] == [];
  }

  /** A generate stream is one progress line per non-empty delta followed by exactly one
      terminal line. */
  lemma GenerateStreamShape(modelName: string, up: Upstream)
    ensures var ls := GenerateStream(modelName, up);
            && 1 <= |ls| <= |up.chunks| + 1
            && (forall k :: 0 <= k < |ls| - 1 ==> GenerateProgressLine(ls[k]))
            && ls[|ls| - 1] == GenerateFinal(modelName, up.end)
  {
    var ds := GenerateDeltaLines(modelName, up.chunks);
    GenerateDeltaLinesSpec(modelName, up.chunks);
    var ls := ds + [GenerateFinal(modelName, up.end)];
    forall k | 0 <= k < |ls| - 1
      ensures GenerateProgressLine(ls[k])
    {
      assert ls[k] == ds[k] && ds[k] in ds;
    }
  }

  /** Concatenated, the lines of a generate stream carry the upstream text, followed after an
      exception by the error message. */
  lemma GenerateStreamText(modelName: string, up: Upstream)
    ensures Joined(GenerateStream(modelName, up), Response) == Texts(up.chunks) + EndText(up.end)
  {
    var ds := GenerateDeltaLines(modelName, up.chunks);
    GenerateDeltaLinesSpec(modelName, up.chunks);
    GenerateFinalSpec(modelName, up.end);
    JoinedAppend(ds, [GenerateFinal(modelName, up.end)], Response);
  }

  // ---------------------------------------------------------------------------------------
  // The chat stream

  /** The position of the first chunk whose delta is `None`, or the number of chunks. */
  function FirstNoneDelta(chunks: seq<StreamChunk>): (n: nat)
    ensures n <= |chunks|
    ensures forall k :: 0 <= k < n ==> chunks[k].delta.Some?
    ensures n < |chunks| ==> chunks[n].delta.None?
    ensures (forall k :: 0 <= k < |chunks| ==> chunks[k].delta.Some?) ==> n == |chunks|
  {
    if chunks == [] then 0
    else if chunks[0].delta.None? then 0
    else 1 + FirstNoneDelta(chunks[1..])
  }

  /** `if content or tool_calls`. */
  predicate ChatWorthy(d: Delta) {
    d.content.GetOr("") != "" || (d.toolCalls.Some? && d.toolCalls.value != [])
  }

  /** The line a chunk with a delta adds to a chat stream. */
  function ChatLine(modelName: string, c: StreamChunk): seq<Object> {
    if c.delta.Some? && ChatWorthy(c.delta.value) then
      [Converter.ChatStreamChunk(c.delta.value.content.GetOr(""), modelName, c.at, false, c.delta.value.toolCalls)]
    else []
  }

  function ChatDeltaLines(modelName: string, chunks: seq<StreamChunk>): seq<Object> {
    if chunks == [] then []
    else ChatDeltaLines(modelName, chunks[..|chunks| - 1]) + ChatLine(modelName, chunks[|chunks| - 1])
  }

  /** A terminal chat line: the empty final record or an error. */
  function ChatFinal(modelName: string, end: StreamEnd): Object {
    match end
    case Exhausted(at, us) => Converter.ChatResponse("", modelName, at, us, 0, 0, None)
    case Raised(at, message) => Converter.ChatResponse(ErrorPrefix + message, modelName, at, 0, 0, 0, None)
  }

  /** The NDJSON lines `_stream_chat` yields as written: reading `tool_calls` of a `None`
      delta raises, which ends the stream with an error line at that chunk. */
  function ChatStreamAsWritten(modelName: string, up: Upstream): (r: seq<Object>)
    ensures |r| >= 1 && r[..|r| - 1] <= ChatDeltaLines(modelName, up.chunks)
    ensures FirstNoneDelta(up.chunks) < |up.chunks| ==>
              r[|r| - 1] == ChatFinal(modelName, Raised(up.chunks[FirstNoneDelta(up.chunks)].at, NoneDeltaError))
    ensures FirstNoneDelta(up.chunks) == |up.chunks| ==> r[|r| - 1] == ChatFinal(modelName, up.end)
  {
    var n := FirstNoneDelta(up.chunks);
    var ds := ChatDeltaLines(modelName, up.chunks[..n]);
    ChatDeltaLinesPrefix(modelName, up.chunks, n);
    assert (ds + [ChatFinal(modelName, ChatEnd(up))])[..|ds|] == ds;
    ds + [ChatFinal(modelName, ChatEnd(up))]
  }

  /** The lines of the first `i` chunks begin the lines of all of them. */
  lemma {:induction false} ChatDeltaLinesPrefix(modelName: string, chunks: seq<StreamChunk>, i: nat)
    requires i <= |chunks|
    ensures ChatDeltaLines(modelName, chunks[..i]) <= ChatDeltaLines(modelName, chunks)
    decreases |chunks| - i
  {
    if i == |chunks| {
      assert chunks[..i] == chunks;
    } else {
      ChatDeltaLinesPrefix(modelName, chunks, i + 1);
      ChatDeltaLinesStep(modelName, chunks, i);
    }
  }

  /** How the loop as written ends: at the first `None` delta, or as the upstream stream does. */
  function ChatEnd(up: Upstream): StreamEnd {
    var n := FirstNoneDelta(up.chunks);
    if n < |up.chunks| then Raised(up.chunks[n].at, NoneDeltaError) else up.end
  }

  /** The NDJSON lines `_stream_chat` yields when a `None` delta is skipped, as the guard on
      its `content` and the generate stream intend. */
  function ChatStream(modelName: string, up: Upstream): seq<Object> {
    ChatDeltaLines(modelName, up.chunks) + [ChatFinal(modelName, up.end)]
  }

  lemma ChatDeltaLinesStep(modelName: string, chunks: seq<StreamChunk>, i: nat)
    requires i < |chunks|
    ensures ChatDeltaLines(modelName, chunks[..i + 1]) == ChatDeltaLines(modelName, chunks[..i]) + ChatLine(modelName, chunks[i])
  {
    assert chunks[..i + 1][..i] == chunks[..i];
  }

  /** The body of the chat loop: the line a chunk yields, none for a chunk without a delta. */
  method ChatChunkLines(modelName: string, chunk: StreamChunk) returns (step: seq<Object>)
    ensures step == ChatLine(modelName, chunk)
    ensures step != [] <==> chunk.delta.Some? && ChatWorthy(chunk.delta.value)
    ensures Joined(step, MessageText) == DeltaText(chunk) && LineCalls(step) == DeltaCalls(chunk)
  {
    step := [];
    if chunk.delta.Some? {
      var content := chunk.delta.value.content.GetOr("");
      var toolCalls := chunk.delta.value.toolCalls;
      if content != "" || (toolCalls.Some? && toolCalls.value != []) {
        step := [Converter.ChatStreamChunk(content, modelName, chunk.at, false, toolCalls)];
      }
    }
    ChatLineSpec(modelName, chunk);
  }

  /** The last line of the chat stream: the final record, or the error record. */
  method ChatTerminalLine(modelName: string, end: StreamEnd) returns (last: Object)
    ensures last == ChatFinal(modelName, end)
  {
    match end {
      case Exhausted(at, us) =>
        last := Converter.ChatResponse("", modelName, at, us, 0, 0, None);
      case Raised(at, message) =>
        last := Converter.ChatResponse(ErrorPrefix + message, modelName, at, 0, 0, 0, None);
    }
  }

  /** `_stream_chat`, with a chunk without a delta contributing no line. */
  method StreamChat(modelName: string, up: Upstream) returns (lines: seq<Object>)
    ensures lines == ChatStream(modelName, up)
  {
    lines := [];
    var i := 0;
    while i < |up.chunks|
      invariant 0 <= i <= |up.chunks|
      invariant lines == ChatDeltaLines(modelName, up.chunks[..i])
    {
      var step := ChatChunkLines(modelName, up.chunks[i]);
      ChatDeltaLinesStep(modelName, up.chunks, i);
      lines := lines + step;
      i := i + 1;
    }
    assert up.chunks[..i] == up.chunks;
    var last := ChatTerminalLine(modelName, up.end);
    lines := lines + [last];
  }

  /** The message text of a chat line. */
  function MessageText(line: Object): string {
    if "message" in line && line["message"].JObj? then StrAt(line["message"].fields, "content") else ""
  }

  /** The tool calls of a chat line. */
  function ToolCallsOf(line: Object): seq<Json> {
    if "message" in line && line["message"].JObj? && "tool_calls" in line["message"].fields
       && line["message"].fields["tool_calls"].JArr?
    then line["message"].fields["tool_calls"].items else []
  }

  /** A line a chat stream yields before its end: no terminal fields, not done, and a
      message with text or tool calls. */
  predicate ChatProgressLine(line: Object) {
    line.Keys == Converter.ChatBaseKeys && line["done"] == JBool(false)
    && (MessageText(line) != "" || ToolCallsOf(line) != [])
  }

  /** The tool calls a chunk delivers: those of its delta (`tool_calls or []`), none without one. */
  function DeltaCalls(c: StreamChunk): seq<Json> {
    if c.delta.Some? then Converter.ToolCallsOrEmpty(c.delta.value.toolCalls) else []
  }

  /** The tool calls of all chunks, in order. */
  function ChunkCalls(chunks: seq<StreamChunk>): seq<Json> {
    if chunks == [] then [] else ChunkCalls(chunks[..|chunks| - 1]) + DeltaCalls(chunks[|chunks| - 1])
  }

  /** The tool calls of all lines, in order. */
  function LineCalls(lines: seq<Object>): seq<Json> {
    if lines == [] then [] else LineCalls(lines[..|lines| - 1]) + ToolCallsOf(lines[|lines| - 1])
  }

  lemma {:induction false} LineCallsAppend(a: seq<Object>, b: seq<Object>)
    ensures LineCalls(a + b) == LineCalls(a) + LineCalls(b)
    decreases |b|
  {
    if b == [] {
      assert a + b == a;
    } else {
      assert (a + b)[..|a + b| - 1] == a + b[..|b| - 1];
      LineCallsAppend(a, b[..|b| - 1]);
    }
  }

  /** The line of one chunk, if any, is such a line, and it carries the chunk's text and
      tool calls; a chunk with a delta yields a line exactly when it has text or tool calls. */
  lemma ChatLineSpec(modelName: string, c: StreamChunk)
    ensures |ChatLine(modelName, c)| <= 1
    ensures ChatLine(modelName, c) != [] <==> c.delta.Some? && ChatWorthy(c.delta.value)
    ensures Joined(ChatLine(modelName, c), MessageText) == DeltaText(c)
    ensures LineCalls(ChatLine(modelName, c)) == DeltaCalls(c)
    ensures forall line :: line in ChatLine(modelName, c) ==> ChatProgressLine(line)
  {
    if c.delta.Some? && ChatWorthy(c.delta.value) {
      var d := c.delta.value;
      var line := Converter.ChatStreamChunk(d.content.GetOr(""), modelName, c.at, false, d.toolCalls);
      assert MessageText(line) == d.content.GetOr("");
      assert ToolCallsOf(line) == Converter.ToolCallsOrEmpty(d.toolCalls);
      assert ChatLine(modelName, c) == [line];
      assert [line][..0] == [];
    } else if c.delta.Some? {
      assert DeltaCalls(c) == [];
    }
  }

  /** Every chat delta line is a progress line, and together they carry exactly the upstream
      text and the upstream tool calls, in order. */
  lemma {:induction false} ChatDeltaLinesSpec(modelName: string, chunks: seq<StreamChunk>)
    ensures Joined(ChatDeltaLines(modelName, chunks), MessageText) == Texts(chunks)
    ensures LineCalls(ChatDeltaLines(modelName, chunks)) == ChunkCalls(chunks)
    ensures |ChatDeltaLines(modelName, chunks)| <= |chunks|
    ensures forall line :: line in ChatDeltaLines(modelName, chunks) ==> ChatProgressLine(line)
  {
    if chunks != [] {
      var prefix := chunks[..|chunks| - 1];
      var c := chunks[|chunks| - 1];
      ChatDeltaLinesSpec(modelName, prefix);
      ChatLineSpec(modelName, c);
      JoinedAppend(ChatDeltaLines(modelName, prefix), ChatLine(modelName, c), MessageText);
      LineCallsAppend(ChatDeltaLines(modelName, prefix), ChatLine(modelName, c));
    }
  }

  /** The terminal line of a chat stream: done, zero token counts, no `context`, and no
      duration when the stream was cut short. */
  lemma ChatFinalSpec(modelName: string, end: StreamEnd)
    ensures var f := ChatFinal(modelName, end);
            && f.Keys == Converter.ChatResponseKeys
            && "context" !in f
            && f["done"] == JBool(true)
            && f["prompt_eval_count"] == JInt(0) && f["eval_count"] == JInt(0)
            && f["total_duration"] == JInt(if end.Exhausted? then end.elapsedMicros * 1000 else 0)
  {
  }

  lemma ChatFinalText(modelName: string, end: StreamEnd)
    ensures Joined([ChatFinal(modelName, end)], MessageText) == EndText(end)
  {
    assert [ChatFinal(modelName, end)][..0] == [];
  }

  /** A chat stream is at most one progress line per chunk followed by exactly one terminal
      line. */
  lemma ChatStreamShape(modelName: string, up: Upstream)
    ensures var ls := ChatStream(modelName, up);
            && 1 <= |ls| <= |up.chunks| + 1
            && (forall k :: 0 <= k < |ls| - 1 ==> ChatProgressLine(ls[k]))
            && ls[|ls| - 1] == ChatFinal(modelName, up.end)
  {
    var ds := ChatDeltaLines(modelName, up.chunks);
    ChatDeltaLinesSpec(modelName, up.chunks);
    var ls := ds + [ChatFinal(modelName, up.end)];
    forall k | 0 <= k < |ls| - 1
      ensures ChatProgressLine(ls[k])
    {
      assert ls[k] == ds[k] && ds[k] in ds;
    }
  }

  /** No line of a chat stream carries `context`. */
  lemma ChatStreamNoContext(modelName: string, up: Upstream)
    ensures forall line :: line in ChatStream(modelName, up) ==> "context" !in line
  {
    var ls := ChatStream(modelName, up);
    ChatStreamShape(modelName, up);
    ChatFinalSpec(modelName, up.end);
    forall line | line in ls
      ensures "context" !in line
    {
      var k :| 0 <= k < |ls| && ls[k] == line;
      if k < |ls| - 1 {
        assert ChatProgressLine(ls[k]);
      }
    }
  }

  /** Concatenated, the lines of a chat stream carry all of the upstream text, followed after
      an exception by the error message. */
  lemma ChatStreamText(modelName: string, up: Upstream)
    ensures Joined(ChatStream(modelName, up), MessageText) == Texts(up.chunks) + EndText(up.end)
  {
    var ds := ChatDeltaLines(modelName, up.chunks);
    ChatDeltaLinesSpec(modelName, up.chunks);
    ChatFinalText(modelName, up.end);
    JoinedAppend(ds, [ChatFinal(modelName, up.end)], MessageText);
  }

  /** Concatenated, the lines of a chat stream carry all of the upstream tool calls, each on
      the line of the chunk that delivered it; the terminal line carries none. */
  lemma ChatStreamToolCalls(modelName: string, up: Upstream)
    ensures LineCalls(ChatStream(modelName, up)) == ChunkCalls(up.chunks)
    ensures ToolCallsOf(ChatFinal(modelName, up.end)) == []
  {
    var ds := ChatDeltaLines(modelName, up.chunks);
    var f := ChatFinal(modelName, up.end);
    ChatDeltaLinesSpec(modelName, up.chunks);
    assert ToolCallsOf(f) == [];
    assert LineCalls([f]) == LineCalls([f][..0]) + ToolCallsOf(f);
    LineCallsAppend(ds, [f]);
  }

  /** As written, the stream carries the upstream text only up to the first `None` delta, and
      then the `AttributeError` message. */
  lemma ChatAsWrittenText(modelName: string, up: Upstream)
    ensures Joined(ChatStreamAsWritten(modelName, up), MessageText)
            == Texts(up.chunks[..FirstNoneDelta(up.chunks)]) + EndText(ChatEnd(up))
    ensures FirstNoneDelta(up.chunks) < |up.chunks| ==> EndText(ChatEnd(up)) == ErrorPrefix + NoneDeltaError
  {
    var n := FirstNoneDelta(up.chunks);
    var ds := ChatDeltaLines(modelName, up.chunks[..n]);
    ChatDeltaLinesSpec(modelName, up.chunks[..n]);
    ChatFinalText(modelName, ChatEnd(up));
    JoinedAppend(ds, [ChatFinal(modelName, ChatEnd(up))], MessageText);
  }

  /** The code as written and the intended stream agree exactly when no delta is `None`. */
  lemma ChatAsWrittenAgrees(modelName: string, up: Upstream)
    requires forall k :: 0 <= k < |up.chunks| ==> up.chunks[k].delta.Some?
    ensures ChatStreamAsWritten(modelName, up) == ChatStream(modelName, up)
  {
    assert up.chunks[..FirstNoneDelta(up.chunks)] == up.chunks;
  }

  /** When the first chunk has no delta, the stream as written carries nothing but the
      `AttributeError` message, while skipping the chunk keeps all of the text. */
  lemma NoneDeltaFirst(modelName: string, up: Upstream)
    requires up.chunks != [] && up.chunks[0].delta.None?
    ensures Joined(ChatStreamAsWritten(modelName, up), MessageText) == ErrorPrefix + NoneDeltaError
    ensures Joined(ChatStream(modelName, up), MessageText) == Texts(up.chunks) + EndText(up.end)
  {
    ChatAsWrittenText(modelName, up);
    ChatStreamText(modelName, up);
    assert up.chunks[..FirstNoneDelta(up.chunks)] == [];
  }

  /** A chunk without a delta followed by a chunk with the text "hi". */
  const NoneThenHi: Upstream :=
    Upstream([StreamChunk("t0", None), StreamChunk("t1", Some(Delta(Some("hi"), None)))], Exhausted("t2", 0))

  /** On `NoneThenHi` the stream as written reports the `AttributeError` and loses "hi";
      skipping the chunk keeps it. */
  lemma NoneDeltaCutsChatShort(modelName: string)
    ensures Joined(ChatStreamAsWritten(modelName, NoneThenHi), MessageText) == ErrorPrefix + NoneDeltaError
    ensures Joined(ChatStream(modelName, NoneThenHi), MessageText) == "hi"
  {
    NoneDeltaFirst(modelName, NoneThenHi);
    NoneThenHiText();
  }

  lemma NoneThenHiText()
    ensures Texts(NoneThenHi.chunks) == "hi" && EndText(NoneThenHi.end) == ""
  {
    var chunks := NoneThenHi.chunks;
    assert chunks[..1][..0] == [];
  }

  // ---------------------------------------------------------------------------------------
  // The endpoints

  /** What an endpoint sends back: one JSON document with its status, or an NDJSON stream. */
  datatype HttpResponse = JsonResponse(status: int, body: Object) | NdjsonStream(lines: seq<Object>)

  function NotFound(modelName: string): HttpResponse {
    JsonResponse(404, map["error" := JStr("model '" + modelName + "' not found")])
  }

  function ServerError(message: string): HttpResponse {
    JsonResponse(500, map["error" := JStr(message)])
  }

  /** The token counts of a reply: `usage.get(..., 0)`. */
  function Tokens(count: Option<int>): int {
    count.GetOr(0)
  }

  /** `/api/generate`: an unknown model is answered 404 without calling upstream; a streamed
      request gets the lines of `_stream_generate`; otherwise a failed call is answered 500
      with its message, and a completed one with the complete record. */
  method Generate(config: Config.ConfigManager, req: GenerateRequest,
                  complete: UpstreamCall -> Reply, stream: UpstreamCall -> Upstream)
    returns (resp: HttpResponse)
    ensures config.GetLiteLLMConfig(req.model).None? ==> resp == NotFound(req.model)
    ensures config.GetLiteLLMConfig(req.model).Some? ==>
              var call := GenerateCall(req, config.GetLiteLLMConfig(req.model).value);
              && (call.stream ==> resp == NdjsonStream(GenerateStream(req.model, stream(call))))
              && (!call.stream && complete(call).Failed? ==> resp == ServerError(complete(call).message))
              && (!call.stream && complete(call).Completed? ==>
                    var reply := complete(call);
                    resp == JsonResponse(200, Converter.GenerateResponse(reply.content.GetOr(""), req.model, reply.at,
                                           reply.elapsedMicros, Tokens(reply.promptTokens), Tokens(reply.completionTokens))))
  {
    var liteConfig := config.GetLiteLLMConfig(req.model);
    if liteConfig.None? {
      return NotFound(req.model);
    }
    var cfg := liteConfig.value;
    var messages := GenerateMessages(req.system, req.prompt);
    var options := WithFormat(BuildOptions(req.options), req.format);
    options := ApplyConfigOptions(options, cfg);
    var litellmModel := UpstreamProvider(cfg.provider) + "/" + cfg.modelName;
    var call := UpstreamCall(litellmModel, messages, cfg.apiKey, cfg.baseUrl, options, Truthy(req.stream));
    if Truthy(req.stream) {
      var lines := StreamGenerate(req.model, stream(call));
      return NdjsonStream(lines);
    }
    var reply := complete(call);
    if reply.Failed? {
      return ServerError(reply.message);
    }
    var content := reply.content.GetOr("");
    resp := JsonResponse(200, Converter.GenerateResponse(content, req.model, reply.at, reply.elapsedMicros,
                                                         Tokens(reply.promptTokens), Tokens(reply.completionTokens)));
  }

  /** `/api/chat`: as `/api/generate`, with the request's messages passed through, truthy
      tools added to the parameters, and the tool calls of a complete reply returned. */
  method Chat(config: Config.ConfigManager, req: ChatRequest,
              complete: UpstreamCall -> Reply, stream: UpstreamCall -> Upstream)
    returns (resp: HttpResponse)
    ensures config.GetLiteLLMConfig(req.model).None? ==> resp == NotFound(req.model)
    ensures config.GetLiteLLMConfig(req.model).Some? ==>
              var call := ChatCall(req, config.GetLiteLLMConfig(req.model).value);
              && call.messages == req.messages
              && (call.stream ==> resp == NdjsonStream(ChatStream(req.model, stream(call))))
              && (!call.stream && complete(call).Failed? ==> resp == ServerError(complete(call).message))
              && (!call.stream && complete(call).Completed? ==>
                    var reply := complete(call);
                    resp == JsonResponse(200, Converter.ChatResponse(reply.content.GetOr(""), req.model, reply.at,
                                           reply.elapsedMicros, Tokens(reply.promptTokens), Tokens(reply.completionTokens),
                                           reply.toolCalls)))
  {
    var liteConfig := config.GetLiteLLMConfig(req.model);
    if liteConfig.None? {
      return NotFound(req.model);
    }
    var cfg := liteConfig.value;
    var options := WithFormat(BuildOptions(req.options), req.format);
    options := WithTools(options, req.tools);
    options := ApplyConfigOptions(options, cfg);
    var litellmModel := UpstreamProvider(cfg.provider) + "/" + cfg.modelName;
    var call := UpstreamCall(litellmModel, req.messages, cfg.apiKey, cfg.baseUrl, options, Truthy(req.stream));
    if Truthy(req.stream) {
      var lines := StreamChat(req.model, stream(call));
      return NdjsonStream(lines);
    }
    var reply := complete(call);
    if reply.Failed? {
      return ServerError(reply.message);
    }
    var content := reply.content.GetOr("");
    resp := JsonResponse(200, Converter.ChatResponse(content, req.model, reply.at, reply.elapsedMicros,
                                                     Tokens(reply.promptTokens), Tokens(reply.completionTokens),
                                                     reply.toolCalls));
  }

  /** `/api/show`: the description of a configured model, 404 for any other name. */
  function Show(config: Config.ConfigManager, modelName: string): (r: HttpResponse)
    reads config
    ensures config.GetLiteLLMConfig(modelName).None? ==> r == NotFound(modelName)
    ensures config.GetLiteLLMConfig(modelName).Some? ==>
              r.JsonResponse? && r.status == 200
              && "modelfile" in r.body && r.body["modelfile"] == JStr(Converter.ModelfileHeader + modelName + Converter.ModelfileFrom
                   + Converter.ProviderModel(config.providers.vals[modelName].provider,
                                             config.providers.vals[modelName].modelName))
              && r.body == Converter.ModelInfo(modelName, config.providers.vals[modelName].provider,
                                               config.providers.vals[modelName].modelName)
              && r.body["details"] == JObj(Converter.ModelDetails(config.providers.vals[modelName].provider))
  {
    var liteConfig := config.GetLiteLLMConfig(modelName);
    if liteConfig.None? then NotFound(modelName)
    else JsonResponse(200, Converter.ModelInfo(modelName, liteConfig.value.provider, liteConfig.value.modelName))
  }

  /** The list items of `/api/tags` for the names `names`, skipping unconfigured ones. */
  function TagItems(providers: map<string, LiteLLMConfig>, names: seq<string>, modifiedAt: string): seq<Json> {
    if names == [] then []
    else
      var rest := TagItems(providers, names[..|names| - 1], modifiedAt);
      var name := names[|names| - 1];
      if name in providers then
        rest + [JObj(Converter.ModelListItem(name, providers[name].provider, providers[name].modelName, modifiedAt))]
      else rest
  }

  /** Listing every configured name gives one item per name, in order, each the list item of
      that name. */
  lemma {:induction false} TagItemsSpec(providers: map<string, LiteLLMConfig>, names: seq<string>, modifiedAt: string)
    requires forall n :: n in names ==> n in providers
    ensures |TagItems(providers, names, modifiedAt)| == |names|
    ensures forall k :: 0 <= k < |names| ==>
              TagItems(providers, names, modifiedAt)[k]
              == JObj(Converter.ModelListItem(names[k], providers[names[k]].provider,
                                              providers[names[k]].modelName, modifiedAt))
    ensures forall k :: 0 <= k < |names| ==>
              TagItems(providers, names, modifiedAt)[k].JObj?
              && "name" in TagItems(providers, names, modifiedAt)[k].fields
              && TagItems(providers, names, modifiedAt)[k].fields["name"] == JStr(names[k])
  {
    TagItemsContent(providers, names, modifiedAt);
  }

  lemma {:induction false} TagItemsContent(providers: map<string, LiteLLMConfig>, names: seq<string>, modifiedAt: string)
    requires forall n :: n in names ==> n in providers
    ensures |TagItems(providers, names, modifiedAt)| == |names|
    ensures forall k :: 0 <= k < |names| ==>
              TagItems(providers, names, modifiedAt)[k]
              == JObj(Converter.ModelListItem(names[k], providers[names[k]].provider,
                                              providers[names[k]].modelName, modifiedAt))
  {
    if names != [] {
      var prefix := names[..|names| - 1];
      var n := names[|names| - 1];
      TagItemsContent(providers, prefix, modifiedAt);
      var rest := TagItems(providers, prefix, modifiedAt);
      var item := JObj(Converter.ModelListItem(n, providers[n].provider, providers[n].modelName, modifiedAt));
      assert TagItems(providers, names, modifiedAt) == rest + [item];
      forall k | 0 <= k < |prefix|
        ensures TagItems(providers, names, modifiedAt)[k]
                == JObj(Converter.ModelListItem(names[k], providers[names[k]].provider,
                                                providers[names[k]].modelName, modifiedAt))
      {
        assert names[k] == prefix[k];
      }
    }
  }

  lemma TagItemsStep(providers: map<string, LiteLLMConfig>, names: seq<string>, i: nat, modifiedAt: string)
    requires i < |names|
    ensures TagItems(providers, names[..i + 1], modifiedAt)
            == TagItems(providers, names[..i], modifiedAt)
               + (if names[i] in providers
                  then [JObj(Converter.ModelListItem(names[i], providers[names[i]].provider,
                                                     providers[names[i]].modelName, modifiedAt))]
                  else [])
  {
    assert names[..i + 1][..i] == names[..i];
  }

  /** `/api/tags`: one list item per configured model, in configuration order. */
  method Tags(config: Config.ConfigManager, modifiedAt: string) returns (resp: HttpResponse)
    requires config.Valid()
    ensures resp == JsonResponse(200, map["models" := JArr(TagItems(config.providers.vals, config.ListModels(), modifiedAt))])
  {
    var names := config.ListModels();
    var models: seq<Json> := [];
    var i := 0;
    while i < |names|
      invariant 0 <= i <= |names|
      invariant models == TagItems(config.providers.vals, names[..i], modifiedAt)
    {
      var modelName := names[i];
      var liteConfig := config.GetLiteLLMConfig(modelName);
      TagItemsStep(config.providers.vals, names, i, modifiedAt);
      if liteConfig.Some? {
        models := models + [JObj(Converter.ModelListItem(modelName, liteConfig.value.provider,
                                                         liteConfig.value.modelName, modifiedAt))];
      }
      i := i + 1;
    }
    assert names[..i] == names;
    resp := JsonResponse(200, map["models" := JArr(models)]);
  }

  /** The endpoints the proxy refuses. */
  datatype Unsupported = Embed | Create | Copy | Delete | Pull | Push

  /** Their fixed 501 answers. */
  function NotImplemented(e: Unsupported): (r: HttpResponse)
    ensures r.JsonResponse? && r.status == 501 && r.body.Keys == {"error"} && r.body["error"].JStr?
  {
    var message := match e
      case Embed => "embeddings are not yet supported"
      case Create => "model creation is not supported in proxy mode"
      case Copy => "model copy is not supported in proxy mode"
      case Delete => "model deletion is not supported in proxy mode"
      case Pull => "model pull is not supported in proxy mode"
      case Push => "model push is not supported in proxy mode";
    JsonResponse(501, map["error" := JStr(message)])
  }

  /** `/api/ps`: no model is ever reported as loaded, since every call goes upstream. */
  function RunningModels(): (r: HttpResponse)
    ensures r.JsonResponse? && r.status == 200 && r.body.Keys == {"models"} && r.body["models"] == JArr([])
  {
    JsonResponse(200, map["models" := JArr([])])
  }

  /** `/api/version`: the fixed version string. */
  function Version(): (r: HttpResponse)
    ensures r.JsonResponse? && r.status == 200 && r.body.Keys == {"version"} && r.body["version"] == JStr("0.1.0")
  {
    JsonResponse(200, map["version" := JStr("0.1.0")])
  }

  /** `/`: the health check. */
  function Root(): (r: HttpResponse)
    ensures r.JsonResponse? && r.status == 200 && r.body.Keys == {"status"}
            && r.body["status"] == JStr("Ollama is running")
  {
    JsonResponse(200, map["status" := JStr("Ollama is running")])
  }
}

=== FILE: config.dfy ===
/** The config manager of moc_python/src/ollama_proxy/config.py: it flattens the nested
    providers document into one map from Ollama model name to upstream configuration, and
    swaps that map in wholesale on each successful reload. */
module Config {
  import opened Json
  import opened OrderedMap
  import opened ProvidersDoc

  /** The `LiteLLMConfig` dataclass: everything needed to reach one upstream model. */
  datatype LiteLLMConfig = LiteLLMConfig(
    provider: string,
    modelName: string,
    apiKey: Option<string>,
    baseUrl: Option<string>,
    reasoningEffort: Option<string>,
    thinkingBudget: Option<int>,
    additionalParams: Object)

  /** What opening and parsing providers.json yields. */
  datatype ProvidersFile = Missing | Unparseable | Parsed(doc: ODict<ProviderConfig>)

  /** A parsed document is a JSON object, hence a well-formed dict. */
  ghost predicate WellFormed(file: ProvidersFile) {
    file.Parsed? ==> OrderedMap.Valid(file.doc)
  }

  /** The configuration of model `m` served by provider profile `id`: connection data from
      the profile, model data from the model entry, the provider type defaulting to `id`. */
  function EntryFor(id: string, p: ProviderConfig, m: ModelConfig): LiteLLMConfig {
    LiteLLMConfig(
      provider := p.provider.GetOr(id),
      modelName := m.modelName,
      apiKey := p.apiKey,
      baseUrl := p.baseUrl,
      reasoningEffort := m.reasoningEffort,
      thinkingBudget := m.thinkingBudget,
      additionalParams := p.additionalParams.GetOr(map[]))
  }

  /** The map a successful reload installs. By `ProvidersDoc.FlattenKeys` its names are
      exactly the names of all models of all profiles; by `ProvidersDoc.FlattenLaterWins`
      each name maps to `EntryFor` of the last model carrying it. */
  function FlattenProviders(doc: ODict<ProviderConfig>): (r: ODict<LiteLLMConfig>)
    requires OrderedMap.Valid(doc)
    ensures OrderedMap.Valid(r)
  {
    ProvidersDoc.Flatten(doc, EntryFor)
  }

  /** Where a reloaded entry comes from: for every name in the new map there is a profile
      `id` and a model `m` of it named `name`, assignment `i` of the walk, such that the
      provider type (defaulting to `id`), key, base URL and extra parameters are the
      profile's, the upstream model name and thinking settings are the model's, and no later
      model of the walk carries the same name. */
  lemma ReloadedEntry(doc: ODict<ProviderConfig>, name: string) returns (id: string, m: ModelConfig, i: nat)
    requires OrderedMap.Valid(doc)
    requires name in FlattenProviders(doc).vals
    ensures id in doc.keys && m in Models(doc.vals[id]) && m.name == name
    ensures var c := FlattenProviders(doc).vals[name];
            var p := doc.vals[id];
            && c.provider == (if p.provider.Some? then p.provider.value else id)
            && c.apiKey == p.apiKey && c.baseUrl == p.baseUrl
            && c.additionalParams == (if p.additionalParams.Some? then p.additionalParams.value else map[])
            && c.modelName == m.modelName && c.reasoningEffort == m.reasoningEffort
            && c.thinkingBudget == m.thinkingBudget
    ensures var asg := Pairs(doc.keys, doc.vals, EntryFor);
            && i < |asg| && asg[i] == (name, EntryFor(id, doc.vals[id], m))
            && forall j :: i < j < |asg| ==> asg[j].0 != name
  {
    i := FlattenLaterWins(doc, EntryFor, name);
    var asg := Pairs(doc.keys, doc.vals, EntryFor);
    assert Origin(doc.keys, doc.vals, EntryFor, asg[i]);
    id, m :| id in doc.keys && id in doc.vals && m in Models(doc.vals[id])
             && asg[i] == (m.name, EntryFor(id, doc.vals[id], m));
  }

  /** The live configuration (`ConfigManager`). File watching and the lock are not modelled;
      the file contents a reload sees are passed in. */
  class ConfigManager {
    var providers: ODict<LiteLLMConfig>

    ghost predicate Valid()
      reads this
    {
      OrderedMap.Valid(providers)
    }

    /** `__init__`: start empty, then reload once. */
    constructor (file: ProvidersFile)
      requires WellFormed(file)
      ensures Valid()
      ensures providers == if file.Parsed? then FlattenProviders(file.doc) else Empty()
    {
      providers := Empty();
      new;
      ReloadProviders(file);
    }

    /** `reload_providers`: a missing or unparsable file leaves the map as it was; otherwise
        the flattened document replaces it wholesale. */
    method ReloadProviders(file: ProvidersFile)
      requires Valid() && WellFormed(file)
      modifies this
      ensures Valid()
      ensures providers == if file.Parsed? then FlattenProviders(file.doc) else old(providers)
    {
      if !file.Parsed? {
        return;
      }
      var doc := file.doc;
      var newProviders: ODict<LiteLLMConfig> := Empty();
      var i := 0;
      while i < |doc.keys|
        invariant 0 <= i <= |doc.keys|
        invariant newProviders == FromPairs(Pairs(doc.keys[..i], doc.vals, EntryFor))
      {
        var id := doc.keys[i];
        var config := doc.vals[id];
        var models := Models(config);
        ghost var done := Pairs(doc.keys[..i], doc.vals, EntryFor);
        var j := 0;
        assert done + ModelPairs(id, config, models[..0], EntryFor) == done;
        while j < |models|
          invariant 0 <= j <= |models|
          invariant newProviders == FromPairs(done + ModelPairs(id, config, models[..j], EntryFor))
        {
          var m := models[j];
          var entry := EntryFor(id, config, m);
          ModelPairsStep(done, id, config, models, EntryFor, j);
          FromPairsAppend(done + ModelPairs(id, config, models[..j], EntryFor), (m.name, entry));
          newProviders := Put(newProviders, m.name, entry);
          j := j + 1;
        }
        assert models[..j] == models;
        PairsStep(doc.keys, doc.vals, EntryFor, i);
        i := i + 1;
      }
      assert doc.keys[..i] == doc.keys;
      providers := newProviders;
    }

    /** `get_litellm_config`: the configuration of a listed model, `None` for any other name. */
    function GetLiteLLMConfig(name: string): (r: Option<LiteLLMConfig>)
      reads this
      ensures r.Some? <==> name in providers.vals
      ensures r.Some? ==> r.value == providers.vals[name]
    {
      if name in providers.vals then Some(providers.vals[name]) else None
    }

    /** `list_models`: every configured name once, in insertion order. */
    function ListModels(): (r: seq<string>)
      reads this
      requires Valid()
      ensures Distinct(r)
      ensures forall n :: n in r <==> GetLiteLLMConfig(n).Some?
    {
      providers.keys
    }
  }
}

=== FILE: converter.dfy ===
/** The Ollama wire records the proxy sends back (moc_python/src/ollama_proxy/converter.py).
    Every builder returns a fresh JSON object; the clock reading `created_at` is passed in,
    and durations arrive as whole microseconds. */
module Converter {
  import opened Json
  import opened Strings

  const NsPerSecond: nat := 1_000_000_000
  const MicrosPerSecond: nat := 1_000_000
  const DoneReason: string := "stop"

  /** Keys of every generate stream line. */
  const GenerateBaseKeys: set<string> := {"model", "created_at", "response", "done"}
  /** Keys of every chat stream line. */
  const ChatBaseKeys: set<string> := {"model", "created_at", "message", "done"}
  /** Duration and token-count keys, present only on a terminal line. */
  const MeasureKeys: set<string> :=
    {"total_duration", "load_duration", "prompt_eval_count", "prompt_eval_duration", "eval_count", "eval_duration"}
  /** Keys of a complete generate record. */
  const GenerateResponseKeys: set<string> :=
    {"model", "created_at", "response", "done", "done_reason", "context", "total_duration", "load_duration",
     "prompt_eval_count", "prompt_eval_duration", "eval_count", "eval_duration"}
  /** Keys of a complete chat record. */
  const ChatResponseKeys: set<string> :=
    {"model", "created_at", "message", "done", "done_reason", "total_duration", "load_duration",
     "prompt_eval_count", "prompt_eval_duration", "eval_count", "eval_duration"}

  /** A complete record adds the measures and `done_reason` to the keys of a stream line;
      only a generate record adds `context`. */
  lemma ResponseKeys()
    ensures GenerateResponseKeys == GenerateBaseKeys + MeasureKeys + {"done_reason", "context"}
    ensures ChatResponseKeys == ChatBaseKeys + MeasureKeys + {"done_reason"}
    ensures "context" !in ChatResponseKeys
  {
  }

  /** `int(seconds * 1e9)` for `seconds = num / den`: Python's `int` truncates toward zero. */
  function NsFromSeconds(num: int, den: nat): (ns: int)
    requires den > 0
    ensures 0 <= num ==> 0 <= ns && ns * den <= num * NsPerSecond < (ns + 1) * den
    ensures num <= 0 ==> ns <= 0 && -ns * den <= -num * NsPerSecond < (-ns + 1) * den
  {
    if num >= 0 then num * NsPerSecond / den else -((-num) * NsPerSecond / den)
  }

  /** A duration measured in whole microseconds converts exactly: no truncation happens. */
  lemma NsFromMicros(us: int)
    ensures NsFromSeconds(us, MicrosPerSecond) == us * 1000
  {
    if us >= 0 {
      assert us * NsPerSecond == (us * 1000) * MicrosPerSecond;
    } else {
      assert (-us) * NsPerSecond == ((-us) * 1000) * MicrosPerSecond;
    }
  }

  /** `to_ollama_generate_response`: a complete (terminal) generate record. */
  function GenerateResponse(content: string, modelName: string, createdAt: string, elapsedMicros: int,
                            promptTokens: int, completionTokens: int): (r: Object)
    ensures r.Keys == GenerateResponseKeys
    ensures "model" in r && r["model"] == JStr(modelName) && "created_at" in r && r["created_at"] == JStr(createdAt)
    ensures "response" in r && r["response"] == JStr(content)
    ensures "done" in r && r["done"] == JBool(true)
    ensures "done_reason" in r && r["done_reason"] == JStr(DoneReason) && "context" in r && r["context"] == JArr([])
    ensures forall k :: k in {"load_duration", "prompt_eval_duration", "eval_duration"} ==> k in r && r[k] == JInt(0)
    ensures "prompt_eval_count" in r && r["prompt_eval_count"] == JInt(promptTokens)
    ensures "eval_count" in r && r["eval_count"] == JInt(completionTokens)
    ensures "total_duration" in r && r["total_duration"] == JInt(elapsedMicros * 1000)
  {
    NsFromMicros(elapsedMicros);
    map[
      "model" := JStr(modelName),
      "created_at" := JStr(createdAt),
      "response" := JStr(content),
      "done" := JBool(true),
      "done_reason" := JStr(DoneReason),
      "context" := JArr([]),
      "total_duration" := JInt(NsFromSeconds(elapsedMicros, MicrosPerSecond)),
      "load_duration" := JInt(0),
      "prompt_eval_count" := JInt(promptTokens),
      "prompt_eval_duration" := JInt(0),
      "eval_count" := JInt(completionTokens),
      "eval_duration" := JInt(0)
    ]
  }

  /** `to_ollama_generate_stream_chunk`: the terminal keys are present iff `done`, and are
      then all zero or empty. */
  function GenerateStreamChunk(content: string, modelName: string, createdAt: string, done: bool): (r: Object)
    ensures r.Keys == if done then GenerateResponseKeys else GenerateBaseKeys
    ensures "model" in r && r["model"] == JStr(modelName) && "created_at" in r && r["created_at"] == JStr(createdAt)
    ensures "response" in r && r["response"] == JStr(content) && "done" in r && r["done"] == JBool(done)
    ensures done ==> "done_reason" in r && r["done_reason"] == JStr(DoneReason) && "context" in r && r["context"] == JArr([])
    ensures done ==> forall k :: k in MeasureKeys ==> k in r && r[k] == JInt(0)
  {
    if done then
      map[
        "model" := JStr(modelName),
        "created_at" := JStr(createdAt),
        "response" := JStr(content),
        "done" := JBool(done),
        "done_reason" := JStr(DoneReason),
        "context" := JArr([]),
        "total_duration" := JInt(0),
        "load_duration" := JInt(0),
        "prompt_eval_count" := JInt(0),
        "prompt_eval_duration" := JInt(0),
        "eval_count" := JInt(0),
        "eval_duration" := JInt(0)
      ]
    else
      map[
        "model" := JStr(modelName),
        "created_at" := JStr(createdAt),
        "response" := JStr(content),
        "done" := JBool(done)
      ]
  }

  /** A terminal generate stream chunk is exactly a generate response with zero duration and
      zero token counts. */
  lemma TerminalGenerateChunkIsResponse(content: string, modelName: string, createdAt: string)
    ensures GenerateStreamChunk(content, modelName, createdAt, true)
         == GenerateResponse(content, modelName, createdAt, 0, 0, 0)
  {
    var c := GenerateStreamChunk(content, modelName, createdAt, true);
    var g := GenerateResponse(content, modelName, createdAt, 0, 0, 0);
    assert forall k :: k in c ==> c[k] == g[k];
  }

  /** `tool_calls or []`. */
  function ToolCallsOrEmpty(toolCalls: Option<seq<Json>>): (r: seq<Json>)
    ensures toolCalls.Some? && toolCalls.value != [] ==> r == toolCalls.value
    ensures toolCalls.None? || toolCalls.value == [] ==> r == []
  {
    match toolCalls
    case Some(calls) => calls
    case None => []
  }

  /** The assistant `message` object of a chat record. */
  function AssistantMessage(content: string, toolCalls: Option<seq<Json>>): (r: Object)
    ensures r.Keys == {"role", "content", "images", "tool_calls"}
    ensures r["role"] == JStr("assistant") && r["content"] == JStr(content) && r["images"] == JNull
    ensures r["tool_calls"] == JArr(ToolCallsOrEmpty(toolCalls))
  {
    map[
      "role" := JStr("assistant"),
      "content" := JStr(content),
      "images" := JNull,
      "tool_calls" := JArr(ToolCallsOrEmpty(toolCalls))
    ]
  }

  /** `to_ollama_chat_response`: a complete (terminal) chat record. */
  function ChatResponse(content: string, modelName: string, createdAt: string, elapsedMicros: int,
                        promptTokens: int, completionTokens: int, toolCalls: Option<seq<Json>>): (r: Object)
    ensures r.Keys == ChatResponseKeys
    ensures "context" !in r
    ensures "model" in r && r["model"] == JStr(modelName) && "created_at" in r && r["created_at"] == JStr(createdAt)
    ensures "message" in r && r["message"] == JObj(AssistantMessage(content, toolCalls))
    ensures "done" in r && r["done"] == JBool(true) && "done_reason" in r && r["done_reason"] == JStr(DoneReason)
    ensures forall k :: k in {"load_duration", "prompt_eval_duration", "eval_duration"} ==> k in r && r[k] == JInt(0)
    ensures "prompt_eval_count" in r && r["prompt_eval_count"] == JInt(promptTokens)
    ensures "eval_count" in r && r["eval_count"] == JInt(completionTokens)
    ensures "total_duration" in r && r["total_duration"] == JInt(elapsedMicros * 1000)
  {
    NsFromMicros(elapsedMicros);
    map[
      "model" := JStr(modelName),
      "created_at" := JStr(createdAt),
      "message" := JObj(AssistantMessage(content, toolCalls)),
      "done" := JBool(true),
      "done_reason" := JStr(DoneReason),
      "total_duration" := JInt(NsFromSeconds(elapsedMicros, MicrosPerSecond)),
      "load_duration" := JInt(0),
      "prompt_eval_count" := JInt(promptTokens),
      "prompt_eval_duration" := JInt(0),
      "eval_count" := JInt(completionTokens),
      "eval_duration" := JInt(0)
    ]
  }

  /** `to_ollama_chat_stream_chunk`: terminal keys present iff `done`, never a `context`. */
  function ChatStreamChunk(content: string, modelName: string, createdAt: string, done: bool,
                           toolCalls: Option<seq<Json>>): (r: Object)
    ensures r.Keys == if done then ChatResponseKeys else ChatBaseKeys
    ensures "context" !in r
    ensures "model" in r && r["model"] == JStr(modelName) && "created_at" in r && r["created_at"] == JStr(createdAt)
    ensures "message" in r && r["message"] == JObj(AssistantMessage(content, toolCalls))
    ensures "done" in r && r["done"] == JBool(done)
    ensures done ==> "done_reason" in r && r["done_reason"] == JStr(DoneReason)
    ensures done ==> forall k :: k in MeasureKeys ==> k in r && r[k] == JInt(0)
  {
    if done then
      map[
        "model" := JStr(modelName),
        "created_at" := JStr(createdAt),
        "message" := JObj(AssistantMessage(content, toolCalls)),
        "done" := JBool(done),
        "done_reason" := JStr(DoneReason),
        "total_duration" := JInt(0),
        "load_duration" := JInt(0),
        "prompt_eval_count" := JInt(0),
        "prompt_eval_duration" := JInt(0),
        "eval_count" := JInt(0),
        "eval_duration" := JInt(0)
      ]
    else
      map[
        "model" := JStr(modelName),
        "created_at" := JStr(createdAt),
        "message" := JObj(AssistantMessage(content, toolCalls)),
        "done" := JBool(done)
      ]
  }

  /** A terminal chat stream chunk is exactly a chat response with zero duration and counts. */
  lemma TerminalChatChunkIsResponse(content: string, modelName: string, createdAt: string,
                                    toolCalls: Option<seq<Json>>)
    ensures ChatStreamChunk(content, modelName, createdAt, true, toolCalls)
         == ChatResponse(content, modelName, createdAt, 0, 0, 0, toolCalls)
  {
    var c := ChatStreamChunk(content, modelName, createdAt, true, toolCalls);
    var g := ChatResponse(content, modelName, createdAt, 0, 0, 0, toolCalls);
    assert forall k :: k in c ==> c[k] == g[k];
  }

  /** The upstream reference written as `<provider>/<litellm_model>`. */
  function ProviderModel(provider: string, litellmModel: string): (r: string)
    ensures |r| == |provider| + 1 + |litellmModel|
    ensures r[..|provider|] == provider && r[|provider|] == '/' && r[|provider| + 1..] == litellmModel
  {
    provider + "/" + litellmModel
  }

  /** The fixed `details` block of every model description. */
  function ModelDetails(provider: string): (r: Object)
    ensures r.Keys == {"format", "family", "families", "parameter_size", "quantization_level"}
    ensures r["family"] == JStr(provider) && r["format"] == JStr("api")
  {
    map[
      "format" := JStr("api"),
      "family" := JStr(provider),
      "families" := JNull,
      "parameter_size" := JStr("unknown"),
      "quantization_level" := JStr("none")
    ]
  }

  const ModelfileHeader: string := "# Model: "
  const ModelfileFrom: string := "\nFROM "

  /** `to_ollama_model_info`. */
  function ModelInfo(modelName: string, provider: string, litellmModel: string): (r: Object)
    ensures r.Keys == {"modelfile", "parameters", "template", "details", "model_info", "license"}
    ensures r["modelfile"] == JStr(ModelfileHeader + modelName + ModelfileFrom + ProviderModel(provider, litellmModel))
    ensures r["details"] == JObj(ModelDetails(provider))
    ensures r["model_info"].JObj? && "general.name" in r["model_info"].fields
            && r["model_info"].fields["general.name"] == JStr(modelName)
  {
    map[
      "modelfile" := JStr(ModelfileHeader + modelName + ModelfileFrom + ProviderModel(provider, litellmModel)),
      "parameters" := JStr(""),
      "template" := JStr(""),
      "details" := JObj(ModelDetails(provider)),
      "model_info" := JObj(map["general.architecture" := JStr("api"), "general.name" := JStr(modelName)]),
      "license" := JStr("")
    ]
  }

  /** `to_ollama_model_list_item`. */
  function ModelListItem(modelName: string, provider: string, litellmModel: string, modifiedAt: string): (r: Object)
    ensures r.Keys == {"name", "model", "modified_at", "size", "digest", "details"}
    ensures r["name"] == r["model"] == JStr(modelName) && r["size"] == JInt(0)
    ensures r["digest"] == JStr(ProviderModel(provider, litellmModel))
    ensures r["details"] == JObj(ModelDetails(provider))
  {
    map[
      "name" := JStr(modelName),
      "model" := JStr(modelName),
      "modified_at" := JStr(modifiedAt),
      "size" := JInt(0),
      "digest" := JStr(ProviderModel(provider, litellmModel)),
      "details" := JObj(ModelDetails(provider))
    ]
  }

  /** The list item and the model description of one model agree: the description's
      modelfile names the model and ends in `FROM ` followed by the list item's digest, and
      both carry the same details block. */
  lemma ListItemAgreesWithInfo(modelName: string, provider: string, litellmModel: string, modifiedAt: string)
    ensures var info := ModelInfo(modelName, provider, litellmModel);
            var item := ModelListItem(modelName, provider, litellmModel, modifiedAt);
            && info["modelfile"] == JStr(ModelfileHeader + item["name"].s + ModelfileFrom + item["digest"].s)
            && info["details"] == item["details"]
  {
  }
}

=== FILE: json.dfy ===
/** Values shared by every part of the model: optional values and the JSON documents
    the proxy reads, stores and sends. */
module Json {

  datatype Option<+T> = None | Some(value: T) {
    function GetOr(default: T): T {
      match this
      case Some(v) => v
      case None => default
    }
  }

  /** A decoded JSON value. Python floats are kept as reals. */
  datatype Json =
    | JNull
    | JBool(b: bool)
    | JInt(i: int)
    | JFloat(x: real)
    | JStr(s: string)
    | JArr(items: seq<Json>)
    | JObj(fields: map<string, Json>)

  /** A JSON object, i.e. a Python dict with string keys. */
  type Object = map<string, Json>

  /** Python truthiness of a decoded JSON value (`if value:`). */
  predicate Truthy(j: Json) {
    match j
    case JNull => false
    case JBool(b) => b
    case JInt(i) => i != 0
    case JFloat(x) => x != 0.0
    case JStr(s) => s != ""
    case JArr(a) => a != []
    case JObj(o) => o != map[]
  }

  /** The text of a string-valued key, or "" when the key is missing or not a string. */
  function StrAt(o: Object, key: string): string {
    if key in o && o[key].JStr? then o[key].s else ""
  }
}

=== FILE: ordered_map.dfy ===
/** Python's `dict` with string keys: a map that remembers the order in which keys were
    first inserted. Iteration order decides which entry wins on a key collision and the
    order in which names are listed, so the model keeps it. */
module OrderedMap {

  datatype ODict<V> = ODict(keys: seq<string>, vals: map<string, V>)

  /** The keys are listed once each, and exactly the keys of the map are listed. */
  ghost predicate Valid<V>(d: ODict<V>) {
    && Distinct(d.keys)
    && (forall k :: k in d.vals <==> k in d.keys)
  }

  function Empty<V>(): (r: ODict<V>)
    ensures Valid(r) && r.vals == map[]
  {
    ODict([], map[])
  }

  /** `d[k] = v`: an existing key keeps its place, a new key goes last. */
  function Put<V>(d: ODict<V>, k: string, v: V): (r: ODict<V>)
    ensures Valid(d) ==> Valid(r)
    ensures r.vals == d.vals[k := v]
    ensures k in d.vals ==> r.keys == d.keys
    ensures k !in d.vals ==> r.keys == d.keys + [k]
  {
    if k in d.vals then ODict(d.keys, d.vals[k := v]) else ODict(d.keys + [k], d.vals[k := v])
  }

  /** The sequence `ks` with every occurrence of `k` taken out. */
  function Without(ks: seq<string>, k: string): (r: seq<string>)
    ensures forall x :: x in r <==> x in ks && x != k
    ensures |r| <= |ks|
  {
    if ks == [] then []
    else if ks[0] == k then Without(ks[1..], k)
    else [ks[0]] + Without(ks[1..], k)
  }

  /** Taking out keeps the order: a single key stays exactly when it is not `k`, and taking
      out of a concatenation is taking out of each part. */
  lemma {:induction false} WithoutOrder(a: seq<string>, b: seq<string>, k: string)
    ensures Without(a + b, k) == Without(a, k) + Without(b, k)
    ensures forall x :: Without([x], k) == if x == k then [] else [x]
  {
    if a == [] {
      assert a + b == b;
    } else {
      assert (a + b)[1..] == a[1..] + b;
      WithoutOrder(a[1..], b, k);
    }
    forall x
      ensures Without([x], k) == if x == k then [] else [x]
    {
      assert [x][1..] == [];
    }
  }

  predicate Distinct(ks: seq<string>) {
    forall i, j :: 0 <= i < j < |ks| ==> ks[i] != ks[j]
  }

  lemma {:induction false} WithoutDistinct(ks: seq<string>, k: string)
    ensures Distinct(ks) ==> Distinct(Without(ks, k))
  {
    if ks != [] && Distinct(ks) {
      assert Distinct(ks[1..]);
      WithoutDistinct(ks[1..], k);
      assert ks[0] !in ks[1..];
    }
  }

  lemma {:induction false} WithoutAbsent(ks: seq<string>, k: string)
    requires k !in ks
    ensures Without(ks, k) == ks
  {
    if ks != [] {
      WithoutAbsent(ks[1..], k);
      assert ks == [ks[0]] + ks[1..];
    }
  }

  /** `del d[k]`, performed only when `k` is present. */
  function Remove<V>(d: ODict<V>, k: string): (r: ODict<V>)
    ensures Valid(d) ==> Valid(r)
    ensures r.vals == d.vals - {k}
    ensures forall x :: x in r.keys <==> x in d.keys && x != k
  {
    WithoutDistinct(d.keys, k);
    ODict(Without(d.keys, k), d.vals - {k})
  }

  /** A dict built by assigning the pairs in order: `for k, v in kvs: d[k] = v`. */
  function FromPairs<V>(kvs: seq<(string, V)>): (r: ODict<V>)
    ensures Valid(r)
  {
    if kvs == [] then Empty()
    else Put(FromPairs(kvs[..|kvs| - 1]), kvs[|kvs| - 1].0, kvs[|kvs| - 1].1)
  }

  /** The keys of the dict are exactly the keys of the pairs. */
  lemma {:induction false} FromPairsKeys<V>(kvs: seq<(string, V)>)
    ensures forall k :: k in FromPairs(kvs).vals <==> exists i :: 0 <= i < |kvs| && kvs[i].0 == k
  {
    if kvs != [] {
      var prefix := kvs[..|kvs| - 1];
      FromPairsKeys(prefix);
      assert forall i :: 0 <= i < |prefix| ==> prefix[i] == kvs[i];
    }
  }

  /** On a key collision the later pair wins: each key maps to the value of the LAST pair
      carrying it. */
  lemma {:induction false} FromPairsLaterWins<V>(kvs: seq<(string, V)>, k: string) returns (i: nat)
    requires k in FromPairs(kvs).vals
    ensures i < |kvs| && kvs[i] == (k, FromPairs(kvs).vals[k])
    ensures forall j :: i < j < |kvs| ==> kvs[j].0 != k
  {
    var n := |kvs|;
    var prefix := kvs[..n - 1];
    var last := kvs[n - 1];
    assert kvs == prefix + [last];
    FromPairsAppend(prefix, last);
    var v := FromPairs(kvs).vals[k];
    if last.0 == k {
      i := n - 1;
    } else {
      assert FromPairs(prefix).vals[k] == v;
      i := FromPairsLaterWins(prefix, k);
      assert kvs[i] == prefix[i];
      forall j | i < j < n
        ensures kvs[j].0 != k
      {
        if j < n - 1 { assert kvs[j] == prefix[j]; }
      }
    }
  }

  /** Assigning the pairs of `a + [x]` is assigning those of `a`, then `x`. */
  lemma {:induction false} FromPairsAppend<V>(a: seq<(string, V)>, x: (string, V))
    ensures FromPairs(a + [x]) == Put(FromPairs(a), x.0, x.1)
  {
    assert (a + [x])[..|a + [x]| - 1] == a;
  }
}

=== FILE: providers_doc.dfy ===
/** The providers.json document: provider profiles keyed by profile name, each holding the
    models it serves (the ProviderConfig and ModelConfig records of
    py_pro/src/ollama_proxy/storage.py, read back by the config manager). Both the config
    manager and the store flatten it into one dict keyed by model name; the flattening is
    defined here once, over the entry each of them builds per model. */
module ProvidersDoc {
  import opened Json
  import opened OrderedMap

  /** One model entry: its unique Ollama-side `name` and the upstream `model_name`. */
  datatype ModelConfig = ModelConfig(
    name: string,
    modelName: string,
    reasoningEffort: Option<string>,
    thinkingBudget: Option<int>)

  /** One provider profile. Keys the JSON object may lack are `None`; `name` is the redundant
      copy of the profile key that saving strips. */
  datatype ProviderConfig = ProviderConfig(
    name: Option<string>,
    provider: Option<string>,
    apiKey: Option<string>,
    baseUrl: Option<string>,
    model: Option<string>,
    additionalParams: Option<Object>,
    models: Option<seq<ModelConfig>>)

  /** The provider type of OpenAI-compatible endpoints at a custom URL: always offered by the
      settings page, and sent upstream as `openai`. */
  const CustomOpenAI: string := "custom_openai"

  /** `config.get("models", [])`. */
  function Models(p: ProviderConfig): seq<ModelConfig> {
    p.models.GetOr([])
  }

  /** The assignments `result[m["name"]] = entry(id, p, m)` made for the models of profile `id`, in order. */
  function ModelPairs<V>(id: string, p: ProviderConfig, models: seq<ModelConfig>,
                         entry: (string, ProviderConfig, ModelConfig) -> V): seq<(string, V)>
  {
    seq(|models|, k requires 0 <= k < |models| => (models[k].name, entry(id, p, models[k])))
  }

  /** The assignments made for the profiles `ids`, profile by profile, model by model. */
  function Pairs<V>(ids: seq<string>, doc: map<string, ProviderConfig>,
                    entry: (string, ProviderConfig, ModelConfig) -> V): seq<(string, V)>
    requires forall id :: id in ids ==> id in doc
  {
    if ids == [] then []
    else
      var last := ids[|ids| - 1];
      Pairs(ids[..|ids| - 1], doc, entry) + ModelPairs(last, doc[last], Models(doc[last]), entry)
  }

  /** The dict obtained by walking the whole document in order. */
  function Flatten<V>(doc: ODict<ProviderConfig>, entry: (string, ProviderConfig, ModelConfig) -> V): (r: ODict<V>)
    requires OrderedMap.Valid(doc)
    ensures OrderedMap.Valid(r)
  {
    FromPairs(Pairs(doc.keys, doc.vals, entry))
  }

  lemma ModelPairsStep<V>(done: seq<(string, V)>, id: string, p: ProviderConfig, models: seq<ModelConfig>,
                          entry: (string, ProviderConfig, ModelConfig) -> V, j: nat)
    requires j < |models|
    ensures done + ModelPairs(id, p, models[..j + 1], entry)
         == (done + ModelPairs(id, p, models[..j], entry)) + [(models[j].name, entry(id, p, models[j]))]
  {
    assert ModelPairs(id, p, models[..j + 1], entry)
        == ModelPairs(id, p, models[..j], entry) + [(models[j].name, entry(id, p, models[j]))];
  }

  lemma PairsStep<V>(ids: seq<string>, doc: map<string, ProviderConfig>,
                     entry: (string, ProviderConfig, ModelConfig) -> V, i: nat)
    requires i < |ids|
    requires forall id :: id in ids ==> id in doc
    ensures Pairs(ids[..i + 1], doc, entry)
         == Pairs(ids[..i], doc, entry) + ModelPairs(ids[i], doc[ids[i]], Models(doc[ids[i]]), entry)
  {
    assert ids[..i + 1][..i] == ids[..i];
  }

  /** `a` is the assignment made for some model of some profile in `ids`. */
  ghost predicate Origin<V>(ids: seq<string>, doc: map<string, ProviderConfig>,
                            entry: (string, ProviderConfig, ModelConfig) -> V, a: (string, V))
  {
    exists id, m :: id in ids && id in doc && m in Models(doc[id]) && a == (m.name, entry(id, doc[id], m))
  }

  /** Every assignment comes from some model of some listed profile, and every model of
      every listed profile is assigned. */
  lemma {:induction false} PairsOrigin<V>(ids: seq<string>, doc: map<string, ProviderConfig>,
                                          entry: (string, ProviderConfig, ModelConfig) -> V)
    requires forall id :: id in ids ==> id in doc
    ensures forall a :: a in Pairs(ids, doc, entry) ==> Origin(ids, doc, entry, a)
    ensures forall id, m :: id in ids && m in Models(doc[id]) ==> (m.name, entry(id, doc[id], m)) in Pairs(ids, doc, entry)
  {
    if ids != [] {
      var init := ids[..|ids| - 1];
      var last := ids[|ids| - 1];
      PairsOrigin(init, doc, entry);
      var a := Pairs(init, doc, entry);
      var b := ModelPairs(last, doc[last], Models(doc[last]), entry);
      assert Pairs(ids, doc, entry) == a + b;
      forall x | x in a + b
        ensures Origin(ids, doc, entry, x)
      {
        if x in a {
          assert Origin(init, doc, entry, x);
          var id, m :| id in init && id in doc && m in Models(doc[id]) && x == (m.name, entry(id, doc[id], m));
          assert id in ids;
        } else {
          var k :| 0 <= k < |b| && b[k] == x;
          var m := Models(doc[last])[k];
          assert x == (m.name, entry(last, doc[last], m));
        }
      }
      forall id, m | id in ids && m in Models(doc[id])
        ensures (m.name, entry(id, doc[id], m)) in a + b
      {
        if id == last {
          var k :| 0 <= k < |Models(doc[last])| && Models(doc[last])[k] == m;
          assert b[k] == (m.name, entry(id, doc[id], m));
        } else {
          assert id in init;
        }
      }
    }
  }

  /** The flattened keys are exactly the names of all models across all profiles. */
  lemma FlattenKeys<V>(doc: ODict<ProviderConfig>, entry: (string, ProviderConfig, ModelConfig) -> V, name: string)
    requires OrderedMap.Valid(doc)
    ensures name in Flatten(doc, entry).vals <==>
              exists id, m :: id in doc.keys && m in Models(doc.vals[id]) && m.name == name
  {
    var asg := Pairs(doc.keys, doc.vals, entry);
    PairsOrigin(doc.keys, doc.vals, entry);
    FromPairsKeys(asg);
    if name in Flatten(doc, entry).vals {
      var i :| 0 <= i < |asg| && asg[i].0 == name;
      assert asg[i] in asg;
      assert Origin(doc.keys, doc.vals, entry, asg[i]);
    }
    if exists id, m :: id in doc.keys && m in Models(doc.vals[id]) && m.name == name {
      var id, m :| id in doc.keys && m in Models(doc.vals[id]) && m.name == name;
      var k :| 0 <= k < |asg| && asg[k] == (m.name, entry(id, doc.vals[id], m));
      assert asg[k].0 == name;
    }
  }

  /** Each name maps to the entry built from the LAST model carrying it: the installed
      assignment `i` comes from a model of a listed profile, and no later assignment has
      the same name (a later profile or model overwrites an earlier one). */
  lemma FlattenLaterWins<V>(doc: ODict<ProviderConfig>, entry: (string, ProviderConfig, ModelConfig) -> V,
                            name: string) returns (i: nat)
    requires OrderedMap.Valid(doc)
    requires name in Flatten(doc, entry).vals
    ensures var asg := Pairs(doc.keys, doc.vals, entry);
            && i < |asg| && asg[i] == (name, Flatten(doc, entry).vals[name])
            && Origin(doc.keys, doc.vals, entry, asg[i])
            && forall j :: i < j < |asg| ==> asg[j].0 != name
  {
    var asg := Pairs(doc.keys, doc.vals, entry);
    PairsOrigin(doc.keys, doc.vals, entry);
    i := FromPairsLaterWins(asg, name);
    assert asg[i] in asg;
  }
}

=== FILE: settings.dfy ===
/** The logic behind the settings page of src/ollama_proxy/gui/settings.py: the provider
    catalogue and its search filter, API-key masking, the generation of unique profile and
    model keys, the save decisions of the provider and model forms, and the list of
    providers shown on the page. Rendering is not modelled; what the page shows is returned
    as a value. */
module Settings {
  import opened Json
  import opened OrderedMap
  import opened Strings
  import opened ProvidersDoc
  import Storage

  // ---------------------------------------------------------------------------------------
  // The provider catalogue

  datatype Category = Category(title: string, providers: seq<string>)

  /** `LITELLM_PROVIDER_CATEGORIES`, in its order. */
  const ProviderCategories: seq<Category> := [
    Category("主要・一般", ["openai", "anthropic", "gemini", "deepseek", "mistral", "groq",
      "openrouter", "perplexity", "together_ai", "xai", "meta_llama", "chatgpt"]),
    Category("クラウド・インフラ", ["azure", "vertex_ai", "bedrock", "amazon_nova", "aws_sagemaker",
      "azure_ai", "databricks", "datarobot", "cloudflare", "github", "oci", "ovhcloud", "sap",
      "snowflake", "gmi", "heroku"]),
    Category("推論ホスト", ["baseten", "huggingface", "fireworks_ai", "deepinfra", "anyscale",
      "replicate", "voyage", "friendliai", "lambda_ai", "hyperbolic", "nscale", "novita",
      "predibase", "nvidia_nim", "watsonx", "aiml", "aleph_alpha", "ai21", "clarifai", "cerebras",
      "sambanova", "featherless_ai", "galadriel", "nebius", "bytez", "chutes", "morph",
      "gradient_ai", "compactifai", "apertis", "public_ai", "topaz", "synthetic", "xiaomi_mimo",
      "nano-gpt"]),
    Category("ローカル・サーバー", ["ollama", "vllm", "llamafile", "lm_studio", "xinference",
      "triton-inference-server", "docker_model_runner", "petals", "infinity"]),
    Category("エージェント・ゲートウェイ", ["langgraph", "pydantic_ai_agent", "manus", "v0",
      "vercel_ai_gateway", "helicone", "litellm_proxy", "llamagate", "unify", "github_copilot",
      "poe", "ragflow", "comet_api", "wandb_inference"]),
    Category("特定地域・ブランド", ["dashscope", "minimax", "moonshot", "nlp_cloud", "sarvam",
      "volcano", "zai", "lemonade", "baichuan", "sensetime", "yi", "codestral"]),
    Category("オーディオ・画像・検索", ["deepgram", "elevenlabs", "fal_ai", "runwayml", "stability",
      "recraft", "jina_ai", "milvus_vector_stores", "cohere"]),
    Category("その他・実験的", ["abliteration"])
  ]

  /** `DEFAULT_VISIBLE_PROVIDERS`. */
  const DefaultVisibleProviders: seq<string> := ["openai", "anthropic", "gemini", "openrouter", CustomOpenAI]

  /** The providers of the categories, category by category. */
  function Concat(cats: seq<Category>): seq<string> {
    if cats == [] then [] else Concat(cats[..|cats| - 1]) + cats[|cats| - 1].providers
  }

  /** A provider is listed exactly when some category holds it, and the categories appear
      one after another in catalogue order. */
  lemma {:induction false} ConcatSpec(cats: seq<Category>, p: string)
    ensures p in Concat(cats) <==> exists i :: 0 <= i < |cats| && p in cats[i].providers
    ensures cats != [] ==> Concat(cats) == Concat(cats[..|cats| - 1]) + cats[|cats| - 1].providers
  {
    if cats != [] {
      var prefix := cats[..|cats| - 1];
      ConcatSpec(prefix, p);
      assert forall i :: 0 <= i < |prefix| ==> prefix[i] == cats[i];
    }
  }

  /** `LITELLM_PROVIDERS`: the catalogue flattened, then `custom_openai`. */
  const LiteLLMProviders: seq<string> := Concat(ProviderCategories) + [CustomOpenAI]

  /** A provider type is known exactly when it is in some category or is `custom_openai`, and
      `custom_openai` comes last. */
  lemma LiteLLMProvidersSpec(p: string)
    ensures p in LiteLLMProviders <==>
              p == CustomOpenAI || exists i :: 0 <= i < |ProviderCategories| && p in ProviderCategories[i].providers
    ensures LiteLLMProviders[|LiteLLMProviders| - 1] == CustomOpenAI
  {
    ConcatSpec(ProviderCategories, p);
  }

  // ---------------------------------------------------------------------------------------
  // The search filter

  /** A provider matches a query when its lower-case name contains the lower-case query. */
  predicate Matches(provider: string, query: string) {
    Contains(Lower(provider), Lower(query))
  }

  /** `[p for p in providers if query.lower() in p.lower()]`. */
  function FilterProviders(providers: seq<string>, query: string): (r: seq<string>)
    ensures |r| <= |providers|
  {
    if providers == [] then []
    else (if Matches(providers[0], query) then [providers[0]] else []) + FilterProviders(providers[1..], query)
  }

  /** `a` is `b` with some elements left out, the rest in their order. */
  predicate IsSubsequence(a: seq<string>, b: seq<string>) {
    a == [] || (b != [] && ((a[0] == b[0] && IsSubsequence(a[1..], b[1..])) || IsSubsequence(a, b[1..])))
  }

  /** The filter keeps exactly the matching providers, in catalogue order, and an empty
      query keeps them all. */
  lemma {:induction false} FilterProvidersSpec(providers: seq<string>, query: string)
    ensures forall p :: p in FilterProviders(providers, query) <==> p in providers && Matches(p, query)
    ensures IsSubsequence(FilterProviders(providers, query), providers)
    ensures query == "" ==> FilterProviders(providers, query) == providers
  {
    if providers != [] {
      FilterProvidersSpec(providers[1..], query);
      assert providers == [providers[0]] + providers[1..];
      if query == "" {
        assert Lower(query) == [];
        assert Lower(query) <= Lower(providers[0]);
      }
      var rest := FilterProviders(providers[1..], query);
      if Matches(providers[0], query) {
        assert ([providers[0]] + rest)[1..] == rest;
      } else {
        assert [] + rest == rest;
      }
    }
  }

  // ---------------------------------------------------------------------------------------
  // API-key masking

  const NotSet := "未設定"
  const AllHidden := "********"

  /** `_mask_api_key`: no key or an empty one is "not set"; a key of at most eight
      characters is hidden entirely; a longer one shows only its first three and last four
      characters around four asterisks. */
  function MaskApiKey(apiKey: Option<string>): (r: string)
    ensures apiKey.None? || apiKey.value == "" ==> r == NotSet
    ensures apiKey.Some? && 0 < |apiKey.value| <= 8 ==> r == AllHidden
    ensures apiKey.Some? && |apiKey.value| > 8 ==>
              var k := apiKey.value;
              |r| == 11 && r[..3] == k[..3] && r[3..7] == "****" && r[7..] == k[|k| - 4..]
  {
    if apiKey.None? || apiKey.value == "" then NotSet
    else if |apiKey.value| <= 8 then AllHidden
    else apiKey.value[..3] + "****" + apiKey.value[|apiKey.value| - 4..]
  }

  /** The mask reveals nothing but the first three and last four characters: keys longer
      than eight characters that agree there are masked alike, whatever their middle and
      their length, and all short keys are masked alike. */
  lemma MaskHidesMiddle(a: string, b: string)
    requires |a| > 8 && |b| > 8
    requires a[..3] == b[..3] && a[|a| - 4..] == b[|b| - 4..]
    ensures MaskApiKey(Some(a)) == MaskApiKey(Some(b))
  {
  }

  // ---------------------------------------------------------------------------------------
  // Unique names

  /** The `k`-th name tried for `base`: `base` itself, then `base_2`, `base_3`, ... */
  function Candidate(base: string, k: nat): (r: string)
    requires k >= 1
    ensures base <= r
  {
    if k == 1 then base else base + "_" + NatToString(k)
  }

  /** A bound on the lengths of a finite set of names. */
  ghost function MaxLen(names: set<string>): (r: nat)
    ensures forall s :: s in names ==> |s| <= r
  {
    if names == {} then 0
    else
      var s :| s in names;
      var rest := MaxLen(names - {s});
      if |s| > rest then |s| else rest
  }

  /** Candidates with a counter of at least 10^bound are longer than `bound`: the search
      for a free name ends. */
  lemma CandidateLong(base: string, k: nat, bound: nat)
    requires k >= 1
    ensures k >= 2 && k >= Pow10(bound) ==> |Candidate(base, k)| > bound
  {
    if k >= 2 && k >= Pow10(bound) {
      NatToStringLong(k, bound);
    }
  }

  /** `_get_unique_provider_name`: `base` when it is free, otherwise `base_k` for the
      smallest `k >= 2` that is free; never one of the existing names. */
  method UniqueProviderName(baseName: string, existing: set<string>) returns (name: string)
    ensures name !in existing
    ensures baseName !in existing ==> name == baseName
    ensures exists k :: k >= 1 && name == Candidate(baseName, k)
              && forall j :: 1 <= j < k ==> Candidate(baseName, j) in existing
  {
    ghost var bound := MaxLen(existing);
    name := baseName;
    var counter := 2;
    while name in existing
      invariant counter >= 2
      invariant name == Candidate(baseName, counter - 1)
      invariant forall j :: 1 <= j < counter - 1 ==> Candidate(baseName, j) in existing
      decreases Pow10(bound) + 2 - counter
    {
      CandidateLong(baseName, counter - 1, bound);
      name := baseName + "_" + NatToString(counter);
      counter := counter + 1;
    }
  }

  // ---------------------------------------------------------------------------------------
  // Saving a provider profile

  /** The outcome of `_validate_and_save_provider`. */
  datatype ProviderSaveOutcome =
    | SameType(name: string)       // the name is taken by a profile of the same type
    | KeyTaken(key: string)        // the renamed key is taken as well
    | SavedProfile(key: string)    // stored under `key`
    | NotSaved                     // the key came out empty

  /** The renamed key for a name taken by a profile of another type. */
  function RenamedKey(name: string, provider: string): string {
    name + " (" + provider + ")"
  }

  /** The duplicate check and the choice of the key. A profile is saved only under a key
      that is not in use, and that key is the name itself or, when the name belongs to a
      profile of another type, the name followed by the type in parentheses. */
  function SaveKeyFor(existing: map<string, ProviderConfig>, provider: string, name: string): (r: ProviderSaveOutcome)
    ensures r.SameType? <==> name in existing && existing[name].provider == Some(provider)
    ensures r.KeyTaken? <==> name in existing && existing[name].provider != Some(provider)
                               && RenamedKey(name, provider) in existing
    ensures r.SavedProfile? ==> r.key !in existing && r.key != ""
    ensures r.SavedProfile? && name !in existing ==> r.key == name
    ensures r.SavedProfile? && name in existing ==> r.key == RenamedKey(name, provider)
    ensures r.NotSaved? <==> name == "" && name !in existing
  {
    if name in existing && existing[name].provider == Some(provider) then SameType(name)
    else
      var saveName := if name in existing then RenamedKey(name, provider) else name;
      if name in existing && saveName in existing then KeyTaken(saveName)
      else if saveName != "" then SavedProfile(saveName)
      else NotSaved
  }

  /** The profile the form stores: empty key and URL fields become `None`, no default model,
      no extra parameters; the `name` field is dropped on storing. */
  function NewProfile(provider: string, apiKey: Option<string>, baseUrl: Option<string>): ProviderConfig {
    ProviderConfig(
      name := None,
      provider := Some(provider),
      apiKey := if apiKey.Some? && apiKey.value != "" then apiKey else None,
      baseUrl := if baseUrl.Some? && baseUrl.value != "" then baseUrl else None,
      model := None,
      additionalParams := Some(map[]),
      models := None)
  }

  /** `_validate_and_save_provider`: an empty name is replaced by a free one derived from the
      provider type; then the key is chosen by `SaveKeyFor` and the profile stored under it.
      An existing profile is never overwritten. */
  method ValidateAndSaveProvider(store: Storage.Storage, provider: string, name: string,
                                 apiKey: Option<string>, baseUrl: Option<string>)
    returns (usedName: string, outcome: ProviderSaveOutcome)
    requires store.Valid()
    modifies store
    ensures store.Valid()
    ensures name != "" ==> usedName == name
    ensures name == "" ==> usedName !in old(store.providers.vals)
                           && exists k :: k >= 1 && usedName == Candidate(provider, k)
    ensures outcome == SaveKeyFor(old(store.providers.vals), provider, usedName)
    ensures outcome.SavedProfile? ==>
              && outcome.key !in old(store.providers.vals)
              && store.providers == Put(old(store.providers), outcome.key, NewProfile(provider, apiKey, baseUrl))
              && store.providerWrites == old(store.providerWrites) + 1
    ensures !outcome.SavedProfile? ==>
              store.providers == old(store.providers) && store.providerWrites == old(store.providerWrites)
    ensures store.usageLogs == old(store.usageLogs) && store.uiSettings == old(store.uiSettings)
  {
    usedName := name;
    if name == "" {
      usedName := UniqueProviderName(provider, store.providers.vals.Keys);
    }
    var config := NewProfile(provider, apiKey, baseUrl).(name := Some(usedName));
    var existing := store.providers.vals;
    var saveName := usedName;
    if usedName in existing {
      if existing[usedName].provider == Some(provider) {
        return usedName, SameType(usedName);
      }
      saveName := RenamedKey(usedName, provider);
      if saveName in existing {
        return usedName, KeyTaken(saveName);
      }
    }
    if saveName != "" {
      config := config.(name := Some(saveName));
      store.SaveProvider(saveName, config);
      outcome := SavedProfile(saveName);
    } else {
      outcome := NotSaved;
    }
  }

  /** Leaving the name empty always saves a profile, unless the provider type is empty too. */
  lemma AutoNamedProfileSaved(existing: map<string, ProviderConfig>, provider: string, usedName: string, k: nat)
    requires k >= 1 && usedName == Candidate(provider, k) && usedName !in existing
    ensures provider != "" ==> SaveKeyFor(existing, provider, usedName) == SavedProfile(usedName)
  {
  }

  // ---------------------------------------------------------------------------------------
  // Saving a model

  /** `" (<provider>)"`, the suffix that marks a model key as belonging to a profile. */
  function ProviderSuffix(providerName: string): string {
    " (" + providerName + ")"
  }

  /** The first key tried for a model name in use: the name with the profile suffix, unless
      it already ends with it. */
  function ModelKeyBase(input: string, providerName: string): (r: string)
    ensures EndsWith(r, ProviderSuffix(providerName))
    ensures input <= r
  {
    if EndsWith(input, ProviderSuffix(providerName)) then input else input + ProviderSuffix(providerName)
  }

  /** Key `c` is in use by a model of another profile. */
  ghost predicate TakenByOther(existing: map<string, Storage.FlatModel>, c: string, providerName: string) {
    c in existing && existing[c].providerName != providerName
  }

  /** The `while` loop of `_get_unique_model_key`: candidates `base`, `base_2`, ... are
      tried in order until one is free (returned) or belongs to the same profile (refused). */
  method ProbeModelKeys(existing: map<string, Storage.FlatModel>, base: string, providerName: string)
    returns (key: Option<string>)
    ensures key.Some? ==> key.value !in existing
    ensures exists k :: k >= 1
              && (forall j :: 1 <= j < k ==> TakenByOther(existing, Candidate(base, j), providerName))
              && (if key.Some? then key.value == Candidate(base, k)
                  else Candidate(base, k) in existing && existing[Candidate(base, k)].providerName == providerName)
  {
    ghost var bound := MaxLen(existing.Keys);
    var saveKey := base;
    var counter := 2;
    while saveKey in existing
      invariant counter >= 2
      invariant saveKey == Candidate(base, counter - 1)
      invariant forall j :: 1 <= j < counter - 1 ==> TakenByOther(existing, Candidate(base, j), providerName)
      decreases Pow10(bound) + 2 - counter
    {
      if existing[saveKey].providerName == providerName {
        return None;
      }
      CandidateLong(base, counter - 1, bound);
      saveKey := base + "_" + NatToString(counter);
      counter := counter + 1;
    }
    return Some(saveKey);
  }

  /** `_get_unique_model_key`: a free name is kept; a name already used by the same profile
      is refused; otherwise the candidates `base`, `base_2`, ... of `ModelKeyBase` are tried
      in order, and the first free one is returned, unless a candidate of the same profile
      comes first, which is refused. A returned key is never in use. */
  method UniqueModelKey(existing: map<string, Storage.FlatModel>, input: string, providerName: string)
    returns (key: Option<string>)
    ensures input !in existing ==> key == Some(input)
    ensures input in existing && existing[input].providerName == providerName ==> key == None
    ensures key.Some? ==> key.value !in existing
    ensures input in existing && existing[input].providerName != providerName ==>
              var base := ModelKeyBase(input, providerName);
              exists k :: k >= 1
                && (forall j :: 1 <= j < k ==> TakenByOther(existing, Candidate(base, j), providerName))
                && (if key.Some? then key.value == Candidate(base, k)
                    else Candidate(base, k) in existing && existing[Candidate(base, k)].providerName == providerName)
  {
    if input in existing {
      var existingConfig := existing[input];
      if existingConfig.providerName == providerName {
        return None;
      }
      var suffix := ProviderSuffix(providerName);
      var baseCandidate := input;
      if !EndsWith(input, suffix) {
        baseCandidate := input + suffix;
      }
      assert baseCandidate == ModelKeyBase(input, providerName);
      key := ProbeModelKeys(existing, baseCandidate, providerName);
      return;
    }
    return Some(input);
  }

  /** The outcome of `_save_model`. */
  datatype ModelSaveOutcome =
    | Refused                          // `_get_unique_model_key` found a clash
    | EmptyKey                         // the key came out empty
    | SavedModel(key: string)          // stored under `key`
    | UnknownProfile(message: string)  // `save_model` raised `ValueError`

  /** `_save_model`: the model is stored in the chosen profile under a key no model of any
      profile uses, so it is appended to that profile's list and nothing is replaced. */
  method SaveModelEntry(store: Storage.Storage, providerName: string, input: string, actualModel: string,
                        effort: Option<string>, budget: Option<int>)
    returns (outcome: ModelSaveOutcome)
    requires store.Valid()
    modifies store
    ensures store.Valid()
    ensures outcome.SavedModel? ==>
              && providerName in old(store.providers.vals)
              && outcome.key !in old(Storage.FlattenModels(store.providers).vals)
              && var p := old(store.providers.vals[providerName]);
                 store.providers == Put(old(store.providers), providerName,
                   p.(models := Some(Models(p) + [ModelConfig(outcome.key, actualModel, effort, budget)])))
    ensures outcome.UnknownProfile? ==>
              providerName !in old(store.providers.vals) && outcome.message == "Provider '" + providerName + "' not found"
    ensures !outcome.SavedModel? ==> store.providers == old(store.providers)
    ensures input != "" && input !in old(Storage.FlattenModels(store.providers).vals) ==>
              if providerName in old(store.providers.vals) then outcome == SavedModel(input)
              else outcome == UnknownProfile("Provider '" + providerName + "' not found")
    ensures outcome.Refused? ==> input in old(Storage.FlattenModels(store.providers).vals)
    ensures store.providerWrites == old(store.providerWrites) + (if outcome.SavedModel? then 1 else 0)
    ensures store.usageLogs == old(store.usageLogs) && store.uiSettings == old(store.uiSettings)
  {
    var flat := store.ListModelsFlat();
    var saveKey := UniqueModelKey(flat.vals, input, providerName);
    if saveKey.None? {
      return Refused;
    }
    if saveKey.value == "" {
      return EmptyKey;
    }
    var config := ModelConfig(saveKey.value, actualModel, effort, budget);
    ghost var before := store.providers;
    var result := store.SaveModel(providerName, config);
    if result.ValueError? {
      return UnknownProfile(result.message);
    }
    FreshKeyAppends(before, providerName, config);
    outcome := SavedModel(saveKey.value);
  }

  /** Upserting a model whose name no profile uses appends it. */
  lemma FreshKeyAppends(providers: ODict<ProviderConfig>, providerName: string, config: ModelConfig)
    requires OrderedMap.Valid(providers) && providerName in providers.vals
    requires config.name !in Storage.FlattenModels(providers).vals
    ensures Storage.Upsert(Models(providers.vals[providerName]), config) == Models(providers.vals[providerName]) + [config]
  {
    var models := Models(providers.vals[providerName]);
    Storage.FlattenModelsSpec(providers, config.name);
    assert providerName in providers.keys;
    forall i | 0 <= i < |models|
      ensures models[i].name != config.name
    {
      assert models[i] in models;
    }
    var replaced := seq(|models|, i requires 0 <= i < |models| =>
                          if models[i].name == config.name then config else models[i]);
    assert replaced == models;
  }

  /** A thinking budget of 0, or none, is sent as `None`. */
  function NormaliseBudget(budget: Option<int>): (r: Option<int>)
    ensures r.Some? <==> budget.Some? && budget.value != 0
    ensures r.Some? ==> r == budget
  {
    var b := if budget == Some(0) then None else budget;
    if b.Some? && b.value != 0 then b else None
  }

  /** The reasoning effort "disable" is sent as `None`; any other choice as it is. */
  function NormaliseEffort(effort: Option<string>): (r: Option<string>)
    ensures r.None? <==> effort.None? || effort == Some("disable")
    ensures r.Some? ==> r == effort
  {
    if effort != Some("disable") then effort else None
  }

  /** What pressing the model form's save button does. */
  datatype ModelFormOutcome =
    | NoProfileSelected
    | NoModelName
    | NoActualModel
    | Submitted(result: ModelSaveOutcome)

  /** The save button of the model form: a profile, a model name and an upstream model name
      are required, in that order; the thinking settings are normalised and the model saved. */
  method SubmitModelForm(store: Storage.Storage, providerName: Option<string>, input: string, actualModel: string,
                         effort: Option<string>, budget: Option<int>)
    returns (outcome: ModelFormOutcome)
    requires store.Valid()
    modifies store
    ensures store.Valid()
    ensures providerName.None? || providerName.value == "" ==> outcome == NoProfileSelected
    ensures providerName.Some? && providerName.value != "" && input == "" ==> outcome == NoModelName
    ensures providerName.Some? && providerName.value != "" && input != "" && actualModel == "" ==> outcome == NoActualModel
    ensures outcome.Submitted? <==> providerName.Some? && providerName.value != "" && input != "" && actualModel != ""
    ensures outcome.Submitted? && outcome.result.SavedModel? ==>
              && providerName.value in old(store.providers.vals)
              && var p := old(store.providers.vals[providerName.value]);
              store.providers == Put(old(store.providers), providerName.value,
                p.(models := Some(Models(p) + [ModelConfig(outcome.result.key, actualModel,
                                                            NormaliseEffort(effort), NormaliseBudget(budget))])))
    ensures !(outcome.Submitted? && outcome.result.SavedModel?) ==> store.providers == old(store.providers)
    ensures outcome.Submitted? && input !in old(Storage.FlattenModels(store.providers).vals) ==>
              if providerName.value in old(store.providers.vals) then outcome.result == SavedModel(input)
              else outcome.result == UnknownProfile("Provider '" + providerName.value + "' not found")
  {
    if providerName.None? || providerName.value == "" {
      return NoProfileSelected;
    } else if input == "" {
      return NoModelName;
    } else if actualModel == "" {
      return NoActualModel;
    }
    var result := SaveModelEntry(store, providerName.value, input, actualModel,
                                 NormaliseEffort(effort), NormaliseBudget(budget));
    outcome := Submitted(result);
  }

  // ---------------------------------------------------------------------------------------
  // The providers shown on the page

  /** Whether a stored UI setting is a list of strings. */
  predicate IsStringList(j: Json) {
    j.JArr? && forall i :: 0 <= i < |j.items| ==> j.items[i].JStr?
  }

  function Texts(j: Json): (r: seq<string>)
    requires IsStringList(j)
    ensures |r| == |j.items| && forall i :: 0 <= i < |r| ==> r[i] == j.items[i].s
  {
    seq(|j.items|, i requires 0 <= i < |j.items| => j.items[i].s)
  }

  function ToJson(names: seq<string>): (r: Json)
    ensures IsStringList(r) && Texts(r) == names
  {
    JArr(seq(|names|, i requires 0 <= i < |names| => JStr(names[i])))
  }

  /** The position of the first occurrence of `x`. */
  function FirstIndex(s: seq<string>, x: string): (i: nat)
    requires x in s
    ensures i < |s| && s[i] == x && x !in s[..i]
  {
    if s[0] == x then 0
    else
      var j := FirstIndex(s[1..], x);
      assert s[..j + 1] == [s[0]] + s[1..][..j];
      j + 1
  }

  /** `list.remove(x)`: the first occurrence of `x` taken out, every other element kept in
      its order. */
  function RemoveFirst(s: seq<string>, x: string): (r: seq<string>)
    requires x in s
    ensures |r| == |s| - 1
    ensures multiset(r) == multiset(s) - multiset{x}
    ensures r[..FirstIndex(s, x)] == s[..FirstIndex(s, x)]
    ensures s == r[..FirstIndex(s, x)] + [x] + r[FirstIndex(s, x)..]
  {
    var i := FirstIndex(s, x);
    assert s == s[..i] + [x] + s[i + 1..];
    s[..i] + s[i + 1..]
  }

  /** The page's session state: which provider types are shown, and which one is selected. */
  class SessionState {
    var visibleProviders: seq<string>
    var selectedProviderType: string

    /** `custom_openai` is always shown. */
    ghost predicate Valid()
      reads this
    {
      CustomOpenAI in visibleProviders
    }

    /** The first visit: the stored list (or the default one), with `custom_openai` added
        when missing; the first shown provider is selected. */
    constructor (uiSettings: Object)
      requires "visible_providers" in uiSettings ==> IsStringList(uiSettings["visible_providers"])
      ensures Valid()
      ensures var stored := if "visible_providers" in uiSettings then Texts(uiSettings["visible_providers"])
                            else DefaultVisibleProviders;
              visibleProviders == if CustomOpenAI in stored then stored else stored + [CustomOpenAI]
      ensures selectedProviderType == visibleProviders[0]
    {
      var stored := if "visible_providers" in uiSettings then Texts(uiSettings["visible_providers"])
                    else DefaultVisibleProviders;
      if CustomOpenAI !in stored {
        stored := stored + [CustomOpenAI];
      }
      visibleProviders := stored;
      selectedProviderType := stored[0];
    }

    /** `_toggle_provider`: `custom_openai` stays shown and nothing is saved; another shown
        provider is hidden; a hidden one is shown at the end and selected. After a change the
        list is saved as the UI settings. */
    method Toggle(p: string, store: Storage.Storage)
      requires Valid()
      modifies this, store
      ensures Valid()
      ensures p == CustomOpenAI ==>
                && visibleProviders == old(visibleProviders)
                && selectedProviderType == old(selectedProviderType)
                && store.uiSettings == old(store.uiSettings)
      ensures p != CustomOpenAI && p in old(visibleProviders) ==>
                && visibleProviders == RemoveFirst(old(visibleProviders), p)
                && selectedProviderType == old(selectedProviderType)
      ensures p !in old(visibleProviders) ==>
                visibleProviders == old(visibleProviders) + [p] && selectedProviderType == p
      ensures p != CustomOpenAI ==> store.uiSettings == map["visible_providers" := ToJson(visibleProviders)]
      ensures store.providers == old(store.providers) && store.providerWrites == old(store.providerWrites)
      ensures store.usageLogs == old(store.usageLogs)
    {
      if p in visibleProviders {
        if p == CustomOpenAI {
          return;
        }
        visibleProviders := RemoveFirst(visibleProviders, p);
        assert multiset(visibleProviders)[CustomOpenAI] == multiset(old(visibleProviders))[CustomOpenAI];
      } else {
        visibleProviders := visibleProviders + [p];
        selectedProviderType := p;
      }
      store.SaveUiSettings(map["visible_providers" := ToJson(visibleProviders)]);
    }
  }

  /** Hiding a provider keeps every other shown provider, and on a list without
      repetitions hides it completely. */
  lemma HideKeepsOthers(visible: seq<string>, p: string, q: string)
    requires p in visible && q != p
    ensures q in RemoveFirst(visible, p) <==> q in visible
    ensures Distinct(visible) ==> p !in RemoveFirst(visible, p)
  {
    var i := FirstIndex(visible, p);
    assert visible == visible[..i] + [p] + visible[i + 1..];
    if Distinct(visible) {
      assert forall j :: i < j < |visible| ==> visible[j] != p;
      assert p !in visible[i + 1..];
    }
  }
}

=== FILE: storage.dfy ===
/** The JSON-file store of py_pro/src/ollama_proxy/storage.py, held in memory: the
    providers document, the usage log and the UI settings. Each operation loads the
    document, changes it and writes it back; `providerWrites` counts the writes of
    providers.json, the one visible effect of a write (the config manager reloads on it). */
module Storage {
  import opened Json
  import opened OrderedMap
  import opened ProvidersDoc

  /** One `UsageLog` record. */
  datatype UsageLog = UsageLog(timestamp: string, provider: string, model: string, inputTokens: int, outputTokens: int)

  /** A model entry as `list_models_flat` returns it: a copy with `provider_name` injected. */
  datatype FlatModel = FlatModel(config: ModelConfig, providerName: string)

  /** `save_model` either succeeds or raises `ValueError`. */
  datatype SaveResult = Saved | ValueError(message: string)

  function FlatEntry(id: string, p: ProviderConfig, m: ModelConfig): FlatModel {
    FlatModel(m, id)
  }

  /** What `list_models_flat` returns for a providers document. */
  function FlattenModels(providers: ODict<ProviderConfig>): (r: ODict<FlatModel>)
    requires OrderedMap.Valid(providers)
    ensures OrderedMap.Valid(r)
  {
    ProvidersDoc.Flatten(providers, FlatEntry)
  }

  /** Every flattened model names the profile it was found in, under its own name, and
      the flattened names are exactly the model names of the document. */
  lemma FlattenModelsSpec(providers: ODict<ProviderConfig>, name: string)
    requires OrderedMap.Valid(providers)
    ensures name in FlattenModels(providers).vals <==>
              exists id, m :: id in providers.keys && m in Models(providers.vals[id]) && m.name == name
    ensures name in FlattenModels(providers).vals ==>
              var f := FlattenModels(providers).vals[name];
              && f.config.name == name
              && f.providerName in providers.keys
              && f.config in Models(providers.vals[f.providerName])
  {
    FlattenKeys(providers, FlatEntry, name);
    if name in FlattenModels(providers).vals {
      var i := FlattenLaterWins(providers, FlatEntry, name);
      var asg := Pairs(providers.keys, providers.vals, FlatEntry);
      assert Origin(providers.keys, providers.vals, FlatEntry, asg[i]);
    }
  }

  /** The model list after `save_model`: every entry with the same name replaced in place,
      or the new entry appended when none matched. */
  function Upsert(models: seq<ModelConfig>, config: ModelConfig): (r: seq<ModelConfig>)
  {
    var replaced := seq(|models|, i requires 0 <= i < |models| =>
                          if models[i].name == config.name then config else models[i]);
    if exists i :: 0 <= i < |models| && models[i].name == config.name then replaced
    else replaced + [config]
  }

  /** Upserting keeps the order and every other entry, grows the list by at most one
      (by one exactly when the name was new, at the end), and leaves `config` as the only
      entry with its name. */
  lemma UpsertSpec(models: seq<ModelConfig>, config: ModelConfig)
    ensures var r := Upsert(models, config);
            var isNew := forall i :: 0 <= i < |models| ==> models[i].name != config.name;
            && |r| == |models| + (if isNew then 1 else 0)
            && (forall i :: 0 <= i < |models| && models[i].name != config.name ==> r[i] == models[i])
            && (forall i :: 0 <= i < |models| && models[i].name == config.name ==> r[i] == config)
            && (isNew ==> r[|models|] == config)
            && config in r
            && (forall m :: m in r && m.name == config.name ==> m == config)
  {
  }

  /** Saving the same model twice is the same as saving it once. */
  lemma {:induction false} UpsertIdempotent(models: seq<ModelConfig>, config: ModelConfig)
    ensures Upsert(Upsert(models, config), config) == Upsert(models, config)
  {
    var once := Upsert(models, config);
    UpsertSpec(models, config);
    assert config in once;
    var k :| 0 <= k < |once| && once[k] == config;
    assert exists i :: 0 <= i < |once| && once[i].name == config.name;
    var twice := Upsert(once, config);
    assert |twice| == |once|;
    forall i | 0 <= i < |once|
      ensures twice[i] == once[i]
    {
      if once[i].name == config.name {
        assert once[i] in once;
      }
    }
  }

  /** The models of `ms` not named `name`, in their order (`[m for m in ms if m["name"] != name]`). */
  function KeptModels(ms: seq<ModelConfig>, name: string): (r: seq<ModelConfig>)
    ensures |r| <= |ms|
  {
    if ms == [] then []
    else if ms[0].name == name then KeptModels(ms[1..], name)
    else [ms[0]] + KeptModels(ms[1..], name)
  }

  /** Filtering keeps exactly the models not named `name`, and shortens the list exactly
      when one was named `name`. */
  lemma {:induction false} KeptModelsSpec(ms: seq<ModelConfig>, name: string)
    ensures forall m :: m in KeptModels(ms, name) <==> m in ms && m.name != name
    ensures |KeptModels(ms, name)| == |ms| <==> forall m :: m in ms ==> m.name != name
    ensures (forall m :: m in ms ==> m.name != name) ==> KeptModels(ms, name) == ms
  {
    if ms != [] {
      KeptModelsSpec(ms[1..], name);
      assert ms == [ms[0]] + ms[1..];
    }
  }

  /** Filtering keeps the order: a single model stays exactly when it is not named `name`,
      and the filter of a concatenation is the concatenation of the filters. */
  lemma {:induction false} KeptModelsOrder(a: seq<ModelConfig>, b: seq<ModelConfig>, name: string)
    ensures KeptModels(a + b, name) == KeptModels(a, name) + KeptModels(b, name)
    ensures forall m :: KeptModels([m], name) == if m.name == name then [] else [m]
  {
    if a == [] {
      assert a + b == b;
    } else {
      assert (a + b)[1..] == a[1..] + b;
      KeptModelsOrder(a[1..], b, name);
    }
    forall m
      ensures KeptModels([m], name) == if m.name == name then [] else [m]
    {
      assert [m][1..] == [];
    }
  }

  /** Whether profile `p` lists a model called `name`. */
  ghost predicate Lists(p: ProviderConfig, name: string) {
    exists m :: m in Models(p) && m.name == name
  }

  /** One profile after `delete_model(name)`: its list is rewritten only if it lost a model. */
  function StripModel(p: ProviderConfig, name: string): (r: ProviderConfig)
    ensures forall m :: m in Models(r) <==> m in Models(p) && m.name != name
    ensures Models(r) == KeptModels(Models(p), name)
    ensures r.(models := p.models) == p
    ensures !Lists(p, name) ==> r == p
  {
    KeptModelsSpec(Models(p), name);
    var kept := KeptModels(Models(p), name);
    if |kept| != |Models(p)| then p.(models := Some(kept)) else p
  }

  /** Whether some profile holds a model called `name`. */
  ghost predicate HoldsModel(providers: ODict<ProviderConfig>, name: string) {
    exists id :: id in providers.vals && Lists(providers.vals[id], name)
  }

  /** The providers document after `delete_model(name)`. */
  function DeleteModelFrom(providers: ODict<ProviderConfig>, name: string): (r: ODict<ProviderConfig>)
    ensures r.keys == providers.keys && r.vals.Keys == providers.vals.Keys
    ensures forall id :: id in r.vals ==> r.vals[id] == StripModel(providers.vals[id], name)
  {
    ODict(providers.keys, map id | id in providers.vals :: StripModel(providers.vals[id], name))
  }

  /** After deleting, no profile holds a model of that name, every other model is still
      where it was, and nothing changes when no profile held one. */
  lemma DeleteModelSpec(providers: ODict<ProviderConfig>, name: string)
    ensures !HoldsModel(DeleteModelFrom(providers, name), name)
    ensures forall id, m :: id in providers.vals && m in Models(providers.vals[id]) && m.name != name
              ==> m in Models(DeleteModelFrom(providers, name).vals[id])
    ensures forall id :: id in providers.vals ==>
              Models(DeleteModelFrom(providers, name).vals[id]) == KeptModels(Models(providers.vals[id]), name)
    ensures !HoldsModel(providers, name) ==> DeleteModelFrom(providers, name) == providers
  {
    var r := DeleteModelFrom(providers, name);
    if !HoldsModel(providers, name) {
      assert r.vals == providers.vals;
    }
  }

  /** The loop of `delete_model` over the profiles in document order: each profile's list
      filtered, and whether any profile lost a model. */
  method StripEach(keys: seq<string>, original: map<string, ProviderConfig>, name: string)
    returns (loaded: map<string, ProviderConfig>, changed: bool)
    requires Distinct(keys) && forall id :: id in original <==> id in keys
    ensures loaded == map id | id in original :: StripModel(original[id], name)
    ensures changed <==> exists id :: id in original && Lists(original[id], name)
  {
    loaded := original;
    changed := false;
    var i := 0;
    while i < |keys|
      invariant 0 <= i <= |keys|
      invariant loaded.Keys == original.Keys
      invariant forall k :: 0 <= k < i ==> loaded[keys[k]] == StripModel(original[keys[k]], name)
      invariant forall k :: i <= k < |keys| ==> loaded[keys[k]] == original[keys[k]]
      invariant changed <==> exists k :: 0 <= k < i && Lists(original[keys[k]], name)
    {
      var pName := keys[i];
      var pConfig := loaded[pName];
      var models := Models(pConfig);
      var newModels := KeptModels(models, name);
      KeptModelsSpec(models, name);
      if |newModels| != |models| {
        loaded := loaded[pName := pConfig.(models := Some(newModels))];
        changed := true;
      }
      assert forall k :: 0 <= k < |keys| && k != i ==> keys[k] != pName;
      i := i + 1;
    }
    if changed {
      ghost var k :| 0 <= k < |keys| && Lists(original[keys[k]], name);
      assert keys[k] in original;
    } else {
      forall id | id in original
        ensures !Lists(original[id], name)
      {
        ghost var k :| 0 <= k < |keys| && keys[k] == id;
      }
    }
    forall id | id in original
      ensures loaded[id] == StripModel(original[id], name)
    {
      ghost var k :| 0 <= k < |keys| && keys[k] == id;
    }
  }

  class Storage {
    var providers: ODict<ProviderConfig>
    var usageLogs: seq<UsageLog>
    var uiSettings: Object
    var providerWrites: nat

    ghost predicate Valid()
      reads this
    {
      OrderedMap.Valid(providers)
    }

    /** A fresh store: the three files created empty. */
    constructor ()
      ensures Valid()
      ensures providers == Empty() && usageLogs == [] && uiSettings == map[] && providerWrites == 0
    {
      providers := Empty();
      usageLogs := [];
      uiSettings := map[];
      providerWrites := 0;
    }

    /** `get_provider`. */
    function GetProvider(name: string): (r: Option<ProviderConfig>)
      reads this
      ensures r.Some? <==> name in providers.vals
      ensures r.Some? ==> r.value == providers.vals[name]
    {
      if name in providers.vals then Some(providers.vals[name]) else None
    }

    /** `save_provider`: stored under `name` without its redundant `name` key; a new name
        goes last, an existing one keeps its place; no other profile changes. */
    method SaveProvider(name: string, config: ProviderConfig)
      requires Valid()
      modifies this
      ensures Valid()
      ensures providers == Put(old(providers), name, config.(name := None))
      ensures GetProvider(name) == Some(config.(name := None))
      ensures forall other :: other != name ==> GetProvider(other) == old(GetProvider(other))
      ensures providerWrites == old(providerWrites) + 1
      ensures usageLogs == old(usageLogs) && uiSettings == old(uiSettings)
    {
      var stored := config.(name := None);
      providers := Put(providers, name, stored);
      providerWrites := providerWrites + 1;
    }

    /** `delete_provider`: removes only that profile; absent names change nothing but the
        file is written all the same. */
    method DeleteProvider(name: string)
      requires Valid()
      modifies this
      ensures Valid()
      ensures providers.vals == old(providers.vals) - {name}
      ensures providers.keys == Without(old(providers.keys), name)
      ensures name !in old(providers.vals) ==> providers == old(providers)
      ensures providerWrites == old(providerWrites) + 1
      ensures usageLogs == old(usageLogs) && uiSettings == old(uiSettings)
    {
      if name in providers.vals {
        providers := Remove(providers, name);
      } else {
        assert name !in providers.keys;
        WithoutAbsent(providers.keys, name);
      }
      providerWrites := providerWrites + 1;
    }

    /** `save_model`: `ValueError` and no change for an unknown profile; otherwise the
        profile's list becomes `Upsert(list, config)` and nothing else changes. */
    method SaveModel(providerName: string, config: ModelConfig) returns (result: SaveResult)
      requires Valid()
      modifies this
      ensures Valid()
      ensures providerName !in old(providers.vals) ==>
                result == ValueError("Provider '" + providerName + "' not found")
                && providers == old(providers) && providerWrites == old(providerWrites)
      ensures providerName in old(providers.vals) ==>
                && result == Saved
                && providers == Put(old(providers), providerName,
                                    old(providers.vals[providerName]).(models := Some(Upsert(Models(old(providers.vals[providerName])), config))))
                && providerWrites == old(providerWrites) + 1
      ensures usageLogs == old(usageLogs) && uiSettings == old(uiSettings)
    {
      if providerName !in providers.vals {
        return ValueError("Provider '" + providerName + "' not found");
      }
      var providerConfig := providers.vals[providerName];
      var models := Models(providerConfig);
      var updated := false;
      var newModels: seq<ModelConfig> := [];
      var i := 0;
      while i < |models|
        invariant 0 <= i <= |models|
        invariant |newModels| == i
        invariant forall k :: 0 <= k < i ==>
                    newModels[k] == if models[k].name == config.name then config else models[k]
        invariant updated <==> exists k :: 0 <= k < i && models[k].name == config.name
      {
        var m := models[i];
        if m.name == config.name {
          newModels := newModels + [config];
          updated := true;
        } else {
          newModels := newModels + [m];
        }
        i := i + 1;
      }
      if !updated {
        newModels := newModels + [config];
      }
      assert newModels == Upsert(models, config);
      providers := Put(providers, providerName, providerConfig.(models := Some(newModels)));
      providerWrites := providerWrites + 1;
      result := Saved;
    }

    /** `list_models_flat`: every model keyed by its name with `provider_name` injected; on a
        name collision the later profile or model wins (see `FlattenModelsSpec` and
        `ProvidersDoc.FlattenLaterWins`). */
    method ListModelsFlat() returns (result: ODict<FlatModel>)
      requires Valid()
      ensures result == FlattenModels(providers)
    {
      var doc := providers;
      result := Empty();
      var i := 0;
      while i < |doc.keys|
        invariant 0 <= i <= |doc.keys|
        invariant result == FromPairs(Pairs(doc.keys[..i], doc.vals, FlatEntry))
      {
        var pName := doc.keys[i];
        var pConfig := doc.vals[pName];
        var models := Models(pConfig);
        ghost var done := Pairs(doc.keys[..i], doc.vals, FlatEntry);
        assert done + ModelPairs(pName, pConfig, models[..0], FlatEntry) == done;
        var j := 0;
        while j < |models|
          invariant 0 <= j <= |models|
          invariant result == FromPairs(done + ModelPairs(pName, pConfig, models[..j], FlatEntry))
        {
          var m := models[j];
          var mCopy := FlatModel(m, pName);
          ModelPairsStep(done, pName, pConfig, models, FlatEntry, j);
          FromPairsAppend(done + ModelPairs(pName, pConfig, models[..j], FlatEntry), (m.name, mCopy));
          result := Put(result, m.name, mCopy);
          j := j + 1;
        }
        assert models[..j] == models;
        PairsStep(doc.keys, doc.vals, FlatEntry, i);
        i := i + 1;
      }
      assert doc.keys[..i] == doc.keys;
    }

    /** `delete_model`: every model of that name leaves every profile, the others keep their
        order, and the file is written only when something was removed. */
    method DeleteModel(modelName: string)
      requires Valid()
      modifies this
      ensures Valid()
      ensures providers == DeleteModelFrom(old(providers), modelName)
      ensures providerWrites == old(providerWrites) + (if HoldsModel(old(providers), modelName) then 1 else 0)
      ensures usageLogs == old(usageLogs) && uiSettings == old(uiSettings)
    {
      var loaded, changed := StripEach(providers.keys, providers.vals, modelName);
      if changed {
        providers := ODict(providers.keys, loaded);
        providerWrites := providerWrites + 1;
      } else {
        DeleteModelSpec(providers, modelName);
      }
    }

    /** `add_usage_log`: exactly one record appended, the earlier ones untouched. */
    method AddUsageLog(timestamp: string, provider: string, model: string, inputTokens: int, outputTokens: int)
      modifies this
      ensures usageLogs == old(usageLogs) + [UsageLog(timestamp, provider, model, inputTokens, outputTokens)]
      ensures providers == old(providers) && providerWrites == old(providerWrites) && uiSettings == old(uiSettings)
    {
      usageLogs := usageLogs + [UsageLog(timestamp, provider, model, inputTokens, outputTokens)];
    }

    /** `save_ui_settings`: the settings document is replaced. */
    method SaveUiSettings(settings: Object)
      modifies this
      ensures uiSettings == settings
      ensures providers == old(providers) && providerWrites == old(providerWrites) && usageLogs == old(usageLogs)
    {
      uiSettings := settings;
    }
  }
}

=== FILE: strings.dfy ===
/** The few string operations of Python that the proxy relies on. */
module Strings {

  function Pow10(k: nat): (r: nat)
    ensures r >= 1
  {
    if k == 0 then 1 else 10 * Pow10(k - 1)
  }

  function DigitChar(d: nat): char
    requires d < 10
  {
    "0123456789"[d]
  }

  /** Decimal rendering of a natural number, as Python's `str(n)` / `f"{n}"`. */
  function NatToString(n: nat): (s: string)
    ensures |s| >= 1
  {
    if n < 10 then [DigitChar(n)] else NatToString(n / 10) + [DigitChar(n % 10)]
  }

  /** A number of at least 10^k is written with more than k digits. */
  lemma {:induction false} NatToStringLong(n: nat, k: nat)
    requires n >= Pow10(k)
    ensures |NatToString(n)| > k
  {
    if k > 0 {
      assert n / 10 >= Pow10(k - 1);
      NatToStringLong(n / 10, k - 1);
    }
  }

  /** `s.endswith(suffix)`. */
  predicate EndsWith(s: string, suffix: string) {
    |suffix| <= |s| && s[|s| - |suffix|..] == suffix
  }

  /** `needle in hay` for strings: `needle` starts at some position of `hay`. */
  predicate Contains(hay: string, needle: string)
    decreases |hay|
  {
    needle <= hay || (hay != [] && Contains(hay[1..], needle))
  }

  function LowerChar(c: char): char {
    if 'A' <= c <= 'Z' then (c as int + 32) as char else c
  }

  /** `s.lower()` restricted to ASCII letters. */
  function Lower(s: string): (r: string)
    ensures |r| == |s|
    ensures forall i :: 0 <= i < |s| ==> r[i] == LowerChar(s[i])
  {
    seq(|s|, i requires 0 <= i < |s| => LowerChar(s[i]))
  }

  /** `s.split(sep)[0]`: the part of `s` before the first `sep`, or all of `s`. */
  function Before(s: string, sep: char): (r: string)
    ensures r <= s
    ensures sep !in r
    ensures |r| < |s| ==> s[|r|] == sep
  {
    if s == [] then [] else if s[0] == sep then [] else [s[0]] + Before(s[1..], sep)
  }
}

=== FILE: tracker.dfy ===
/** The usage tracker of src/ollama_proxy/tracker.py: it appends usage records to the store
    and sums them per provider, per model or per day. */
module Tracker {
  import opened Json
  import opened OrderedMap
  import opened Strings
  import Storage

  type UsageLog = Storage.UsageLog

  /** The `AggregatedStats` record. */
  datatype AggregatedStats = AggregatedStats(totalInputTokens: int, totalOutputTokens: int, count: int)

  /** What the statistics are grouped by. */
  datatype GroupBy = ByProvider | ByModel | ByDay

  /** The dictionary key a record is counted under; a day is the part of the ISO timestamp
      before its `T`. */
  function GroupKey(log: UsageLog, grouping: GroupBy): (k: string)
    ensures grouping == ByDay ==> k <= log.timestamp && 'T' !in k
  {
    match grouping
    case ByProvider => log.provider
    case ByModel => log.model
    case ByDay => Before(log.timestamp, 'T')
  }

  /** The `defaultdict` factory's value. */
  const Zero := AggregatedStats(0, 0, 0)

  /** One record added into a group's statistics. */
  function Count(s: AggregatedStats, log: UsageLog): AggregatedStats {
    AggregatedStats(s.totalInputTokens + log.inputTokens, s.totalOutputTokens + log.outputTokens, s.count + 1)
  }

  /** The dictionary the loop builds: records added one after another, a group appearing
      when its first record is seen. */
  function Tally(logs: seq<UsageLog>, grouping: GroupBy): (r: ODict<AggregatedStats>)
    ensures OrderedMap.Valid(r)
  {
    if logs == [] then Empty()
    else
      var prev := Tally(logs[..|logs| - 1], grouping);
      var log := logs[|logs| - 1];
      var k := GroupKey(log, grouping);
      Put(prev, k, Count(if k in prev.vals then prev.vals[k] else Zero, log))
  }

  // Reference definitions: the records of one group, and their sums.

  /** The records whose key is `k`, in order. */
  function Matching(logs: seq<UsageLog>, grouping: GroupBy, k: string): (r: seq<UsageLog>)
    ensures forall x :: x in r <==> x in logs && GroupKey(x, grouping) == k
  {
    if logs == [] then []
    else
      var log := logs[|logs| - 1];
      assert logs == logs[..|logs| - 1] + [log];
      Matching(logs[..|logs| - 1], grouping, k) + (if GroupKey(log, grouping) == k then [log] else [])
  }

  function SumInput(logs: seq<UsageLog>): int {
    if logs == [] then 0 else SumInput(logs[..|logs| - 1]) + logs[|logs| - 1].inputTokens
  }

  function SumOutput(logs: seq<UsageLog>): int {
    if logs == [] then 0 else SumOutput(logs[..|logs| - 1]) + logs[|logs| - 1].outputTokens
  }

  /** The statistics of a list of records, computed directly. */
  function Summary(logs: seq<UsageLog>): AggregatedStats {
    AggregatedStats(SumInput(logs), SumOutput(logs), |logs|)
  }

  lemma SummaryAppend(logs: seq<UsageLog>, log: UsageLog)
    ensures Summary(logs + [log]) == Count(Summary(logs), log)
  {
    assert (logs + [log])[..|logs|] == logs;
  }

  lemma {:induction false} MatchingNone(logs: seq<UsageLog>, grouping: GroupBy, k: string)
    requires forall i :: 0 <= i < |logs| ==> GroupKey(logs[i], grouping) != k
    ensures Matching(logs, grouping, k) == []
  {
    if logs != [] {
      MatchingNone(logs[..|logs| - 1], grouping, k);
    }
  }

  /** The groups are exactly the keys that occur among the records. */
  lemma {:induction false} TallyKeys(logs: seq<UsageLog>, grouping: GroupBy, k: string)
    ensures k in Tally(logs, grouping).vals <==> exists i :: 0 <= i < |logs| && GroupKey(logs[i], grouping) == k
  {
    if logs != [] {
      var prefix := logs[..|logs| - 1];
      TallyKeys(prefix, grouping, k);
      assert GroupKey(logs[|logs| - 1], grouping) == k ==> k in Tally(logs, grouping).vals;
      assert forall i :: 0 <= i < |prefix| ==> prefix[i] == logs[i];
      if exists i :: 0 <= i < |logs| && GroupKey(logs[i], grouping) == k {
        var i :| 0 <= i < |logs| && GroupKey(logs[i], grouping) == k;
        assert i == |logs| - 1 || GroupKey(prefix[i], grouping) == k;
      }
    }
  }

  /** Each group holds the count and token sums of precisely its own records; so every
      listed group has a count of at least one. */
  lemma {:induction false} TallySpec(logs: seq<UsageLog>, grouping: GroupBy, k: string)
    ensures k in Tally(logs, grouping).vals ==>
              && Tally(logs, grouping).vals[k] == Summary(Matching(logs, grouping, k))
              && Tally(logs, grouping).vals[k].count >= 1
  {
    if logs != [] {
      var prefix := logs[..|logs| - 1];
      TallySpec(prefix, grouping, k);
      if GroupKey(logs[|logs| - 1], grouping) == k {
        if k !in Tally(prefix, grouping).vals {
          TallyKeys(prefix, grouping, k);
          MatchingNone(prefix, grouping, k);
        }
        TallyStepOwn(logs, grouping, k);
      } else {
        TallyStepOther(logs, grouping, k);
      }
    }
  }

  /** A record of group `k` is counted into `k`, which then holds what its records sum to. */
  lemma TallyStepOwn(logs: seq<UsageLog>, grouping: GroupBy, k: string)
    requires logs != [] && GroupKey(logs[|logs| - 1], grouping) == k
    requires var prev := Tally(logs[..|logs| - 1], grouping);
             var m := Matching(logs[..|logs| - 1], grouping, k);
             (k in prev.vals ==> prev.vals[k] == Summary(m)) && (k !in prev.vals ==> m == [])
    ensures k in Tally(logs, grouping).vals
    ensures Tally(logs, grouping).vals[k] == Summary(Matching(logs, grouping, k))
    ensures Tally(logs, grouping).vals[k].count >= 1
  {
    var prefix := logs[..|logs| - 1];
    var log := logs[|logs| - 1];
    var m := Matching(prefix, grouping, k);
    assert Matching(logs, grouping, k) == m + [log];
    SummaryAppend(m, log);
  }

  /** A record of another group leaves group `k` as it was. */
  lemma TallyStepOther(logs: seq<UsageLog>, grouping: GroupBy, k: string)
    requires logs != [] && GroupKey(logs[|logs| - 1], grouping) != k
    ensures k in Tally(logs, grouping).vals <==> k in Tally(logs[..|logs| - 1], grouping).vals
    ensures k in Tally(logs, grouping).vals ==>
              Tally(logs, grouping).vals[k] == Tally(logs[..|logs| - 1], grouping).vals[k]
    ensures Matching(logs, grouping, k) == Matching(logs[..|logs| - 1], grouping, k)
  {
    var m := Matching(logs[..|logs| - 1], grouping, k);
    assert m + [] == m;
  }

  // Conservation: across all groups, every record is counted exactly once.

  /** Which figure of the statistics is summed. */
  datatype Figure = InputTokens | OutputTokens | Records

  function Get(s: AggregatedStats, f: Figure): int {
    match f
    case InputTokens => s.totalInputTokens
    case OutputTokens => s.totalOutputTokens
    case Records => s.count
  }

  /** What one record contributes to a figure. */
  function Contribution(log: UsageLog, f: Figure): int {
    match f
    case InputTokens => log.inputTokens
    case OutputTokens => log.outputTokens
    case Records => 1
  }

  /** A figure summed over the groups `keys`. */
  function GroupTotal(keys: seq<string>, vals: map<string, AggregatedStats>, f: Figure): int
    requires forall k :: k in keys ==> k in vals
  {
    if keys == [] then 0
    else GroupTotal(keys[..|keys| - 1], vals, f) + Get(vals[keys[|keys| - 1]], f)
  }

  /** A figure summed over the records. */
  function LogTotal(logs: seq<UsageLog>, f: Figure): int {
    if logs == [] then 0 else LogTotal(logs[..|logs| - 1], f) + Contribution(logs[|logs| - 1], f)
  }

  lemma {:induction false} GroupTotalFrame(keys: seq<string>, vals: map<string, AggregatedStats>,
                                           vals2: map<string, AggregatedStats>, f: Figure)
    requires forall k :: k in keys ==> k in vals && k in vals2 && vals[k] == vals2[k]
    ensures GroupTotal(keys, vals, f) == GroupTotal(keys, vals2, f)
  {
    if keys != [] {
      GroupTotalFrame(keys[..|keys| - 1], vals, vals2, f);
    }
  }

  lemma {:induction false} GroupTotalUpdate(keys: seq<string>, vals: map<string, AggregatedStats>,
                                            k: string, v: AggregatedStats, f: Figure)
    requires Distinct(keys) && k in keys
    requires forall x :: x in keys ==> x in vals
    ensures GroupTotal(keys, vals[k := v], f) == GroupTotal(keys, vals, f) - Get(vals[k], f) + Get(v, f)
  {
    var prefix := keys[..|keys| - 1];
    var last := keys[|keys| - 1];
    assert keys == prefix + [last];
    if last == k {
      assert k !in prefix;
      GroupTotalFrame(prefix, vals[k := v], vals, f);
    } else {
      assert Distinct(prefix);
      GroupTotalUpdate(prefix, vals, k, v, f);
    }
  }

  /** Summed over all groups, the token totals and the counts equal the totals over all
      records: no record is lost or counted twice, whatever the grouping. */
  lemma {:induction false} TallyTotals(logs: seq<UsageLog>, grouping: GroupBy, f: Figure)
    ensures var t := Tally(logs, grouping); GroupTotal(t.keys, t.vals, f) == LogTotal(logs, f)
  {
    if logs == [] {
      assert Tally(logs, grouping) == Empty();
    } else {
      var prefix := logs[..|logs| - 1];
      var log := logs[|logs| - 1];
      TallyTotals(prefix, grouping, f);
      CountTotal(Tally(prefix, grouping), log, grouping, f);
      assert LogTotal(logs, f) == LogTotal(prefix, f) + Contribution(log, f);
    }
  }

  /** The counts of all groups add up to the number of records. */
  lemma RecordsCounted(logs: seq<UsageLog>, grouping: GroupBy)
    ensures var t := Tally(logs, grouping); GroupTotal(t.keys, t.vals, Records) == |logs|
  {
    TallyTotals(logs, grouping, Records);
    LogTotalRecords(logs);
  }

  lemma {:induction false} LogTotalRecords(logs: seq<UsageLog>)
    ensures LogTotal(logs, Records) == |logs|
  {
    if logs != [] {
      LogTotalRecords(logs[..|logs| - 1]);
    }
  }

  /** Counting one more record adds exactly its contribution to a figure summed over the
      groups. */
  lemma CountTotal(prev: ODict<AggregatedStats>, log: UsageLog, grouping: GroupBy, f: Figure)
    requires OrderedMap.Valid(prev)
    ensures var k := GroupKey(log, grouping);
            var t := Put(prev, k, Count(if k in prev.vals then prev.vals[k] else Zero, log));
            GroupTotal(t.keys, t.vals, f) == GroupTotal(prev.keys, prev.vals, f) + Contribution(log, f)
  {
    var k := GroupKey(log, grouping);
    var before := if k in prev.vals then prev.vals[k] else Zero;
    var after := Count(before, log);
    PutTotal(prev, k, after, f);
    assert Get(after, f) == Get(before, f) + Contribution(log, f) by {
      match f
      case InputTokens =>
      case OutputTokens =>
      case Records =>
    }
    assert Get(before, f) == (if k in prev.vals then Get(prev.vals[k], f) else 0) by {
      if k !in prev.vals {
        match f
        case InputTokens =>
        case OutputTokens =>
        case Records =>
      }
    }
  }

  /** The effect of one assignment `d[k] = v` on a figure summed over the groups. */
  lemma PutTotal(d: ODict<AggregatedStats>, k: string, v: AggregatedStats, f: Figure)
    requires OrderedMap.Valid(d)
    ensures var r := Put(d, k, v);
            GroupTotal(r.keys, r.vals, f)
              == GroupTotal(d.keys, d.vals, f) - (if k in d.vals then Get(d.vals[k], f) else 0) + Get(v, f)
  {
    var r := Put(d, k, v);
    if k in d.vals {
      GroupTotalUpdate(d.keys, d.vals, k, v, f);
    } else {
      assert r.keys[..|r.keys| - 1] == d.keys;
      GroupTotalFrame(d.keys, r.vals, d.vals, f);
    }
  }

  /** The loop of `get_stats_by_provider`, `get_stats_by_model` and `get_daily_stats`. */
  method Aggregate(logs: seq<UsageLog>, grouping: GroupBy) returns (stats: ODict<AggregatedStats>)
    ensures stats == Tally(logs, grouping)
  {
    stats := Empty();
    var i := 0;
    while i < |logs|
      invariant 0 <= i <= |logs|
      invariant stats == Tally(logs[..i], grouping)
    {
      var log := logs[i];
      var k := GroupKey(log, grouping);
      var current := if k in stats.vals then stats.vals[k] else Zero;
      stats := Put(stats, k, Count(current, log));
      assert logs[..i + 1][..i] == logs[..i];
      i := i + 1;
    }
    assert logs[..i] == logs;
  }

  /** The `Tracker` class over a store. */
  class Tracker {
    var storage: Storage.Storage

    /** `storage or Storage()`: the given store, or a fresh empty one. */
    constructor (given: Option<Storage.Storage>)
      ensures given.Some? ==> storage == given.value
      ensures given.None? ==> fresh(storage) && storage.usageLogs == []
    {
      if given.Some? {
        storage := given.value;
      } else {
        storage := new Storage.Storage();
      }
    }

    /** `track_usage`: exactly one record appended to the store's log, stamped with the
        current time (passed in), and nothing else in the store changed. */
    method TrackUsage(now: string, provider: string, model: string, inputTokens: int, outputTokens: int)
      modifies storage
      ensures storage.usageLogs == old(storage.usageLogs) + [Storage.UsageLog(now, provider, model, inputTokens, outputTokens)]
      ensures storage.providers == old(storage.providers) && storage.uiSettings == old(storage.uiSettings)
      ensures storage.providerWrites == old(storage.providerWrites)
    {
      storage.AddUsageLog(now, provider, model, inputTokens, outputTokens);
    }

    /** `get_stats_by_provider`. */
    method StatsByProvider() returns (stats: ODict<AggregatedStats>)
      ensures stats == Tally(storage.usageLogs, ByProvider)
    {
      stats := Aggregate(storage.usageLogs, ByProvider);
    }

    /** `get_stats_by_model`. */
    method StatsByModel() returns (stats: ODict<AggregatedStats>)
      ensures stats == Tally(storage.usageLogs, ByModel)
    {
      stats := Aggregate(storage.usageLogs, ByModel);
    }

    /** `get_daily_stats`: grouped by the date part of each record's timestamp. */
    method DailyStats() returns (stats: ODict<AggregatedStats>)
      ensures stats == Tally(storage.usageLogs, ByDay)
    {
      stats := Aggregate(storage.usageLogs, ByDay);
    }
  }
}
